=== FILE: README.md ===
# LazyTimer core in Dafny

This project models the logic of LazyTimer, a macOS productivity timer. The app has three timer modes: Pomodoro work/break cycles, a stopwatch and a clock. It has three presentations: the standard window, a full-screen overlay and a small floating widget. The model covers:

- **The timer engine** (`TimerManager`). It is an immutable `TimerState` record, and each operation is a pure step that returns the next state. Steps that cause side effects also return a list of effects: beep, speak, play a file, show a message. The operations are `tick`, `toggleTimer`/`startTimer`/`stopTimer`, `reset`, `switchSession`, `handleSessionComplete`, `executeCompletionAction`, `showCompletionMessage`, `dismissCompletionMessage`, `playCustomSound`, `sessionLabel`, `formatSeconds` and `selectedGradient`.
- **The scheduled 1-second timer.** It is modelled as a flag saying a timer is stored, plus a count of timers that were scheduled and then lost without being invalidated. One second of wall time fires every live timer once. The central invariant is "a timer exists exactly while running, and none was lost". It makes a second equal one `tick` while running and nothing while paused.
- **The display-mode coordinator** (`WindowManager.switchTo`) and the overlay, floating-widget and settings controllers. Each controller is reduced to the panels it holds.
- **Colours.** This covers the integer part of `Color(hex:)` and the table of gradient presets.
- **View actions that change the engine.** These are the Pomodoro view's time editor and label editor, and the clock view's quick-focus buttons.

Swift's `Int` is modelled where its behaviour shows. Its `/` and `%` truncate toward zero (`SwiftInt.Quot`/`Rem`). "Set Time" traps when `minutes * 60 + seconds` overflows. `Int(text)` returns nil outside the 64-bit range. Decimal text follows the Swift library: `String(n)`, the failable `Int(text)` (which accepts a sign) and `%02d`, whose `%d` reads only the low 32 bits of its `Int` argument as a C `int` (`SwiftInt.Int32`).

Some of the code's behaviour is easy to misread. The model follows the code:

- A Pomodoro session with `k` seconds left completes on second `k + 1`, not on second `k`. The tick that takes the time to zero only decrements it. Completion happens on the next tick, which finds zero. So the default 25-minute session completes on second 1501 (`TimerRuns.FirstWorkSession`).
- Calling `switchTo` twice with the overlay or floating mode leaves the panel shown; it is not toggled off. The first step of the second call hides the panel, and its last step shows it again (`WindowManager.SwitchTwiceStaysShown`). The toggle only shows when a panel is left over from another mode (`WindowManager.StaleOverlayToggledOff`).
- `reset` hides the completion message but does not cancel its 5-second auto-dismiss callback. If a message is shown again within those 5 seconds, the earlier callback hides it early (`TimerEngine.ResetLeavesCallbackPending`). `dismissCompletionMessage` behaves the same way (`TimerEngine.EarlierCallbackHidesNextMessage`), though nothing in the app calls it.
- "Set Time" accepts signed input, so the Pomodoro time can become negative. A tick that finds no time left, whether zero or negative, completes the session.

## Model

| member | source | states |
|---|---|---|
| SwiftInt.Quot | LazyTimer/TimerManager.swift:101-102 | Swift's `/` rounds toward zero: the quotient times the divisor lies within one divisor of the dividend, on the dividend's side of zero |
| SwiftInt.Rem | LazyTimer/TimerManager.swift:102-103 | Swift's `%` takes the dividend's sign, and quotient times divisor plus remainder gives back the dividend |
| SwiftInt.Int32 | LazyTimer/Views/PomodoroView.swift:65 | the C `int` that `%d` reads is a 32-bit value congruent to the argument modulo 2^32, and the argument itself when it fits in 32 bits |
| Decimal.Digits | LazyTimer/Views/PomodoroView.swift:64 | the rendering of a natural number is a non-empty digit string with no leading zero (except for 0 itself); one digit below 10, two from 10 to 99 |
| Decimal.DigitsValue | LazyTimer/Views/PomodoroView.swift:64 | reading the rendered digits back gives the number |
| Decimal.IntString | LazyTimer/Views/PomodoroView.swift:64 | `String(n)` starts with a digit exactly for non-negative `n` and with a minus sign exactly for negative `n`; a positive `n` never starts with 0 |
| Decimal.ParseInt | LazyTimer/Views/PomodoroView.swift:170-171 | `Int(text)` gives a value exactly for digits, "-" then digits, or "+" then digits whose value fits in 64 bits, and that value is the digits' value with the sign applied; nil for anything else (empty text, other characters, a lone sign, overflow) |
| Decimal.Pad2 | LazyTimer/Views/PomodoroView.swift:65 | `%02d` gives at least two characters, and exactly two digits reading back as the printed 32-bit value when that value is in 0..99 (so as `x` for 0 <= x < 100) |
| Decimal.ParseIntString | LazyTimer/Views/PomodoroView.swift:64 | `Int(String(x)) == x` for every representable `x` |
| Decimal.ParsePad2 | LazyTimer/Views/PomodoroView.swift:65 | `Int(String(format: "%02d", x))` gives back the 32-bit value `%d` printed for every representable `x`, which is `x` itself whenever `x` fits in 32 bits |
| Decimal.Pad2Truncates | LazyTimer/Views/PomodoroView.swift:65 | 2^32 is printed as "00" and reads back as 0: values beyond 32 bits do not survive `%02d` |
| TimeFormat.FormatSeconds | LazyTimer/TimerManager.swift:100-109 | for n >= 0 the text reads back (`ReadClock`) as n, with the minute and second fields below 60; it is the five-character "MM:SS" form exactly when n < 3600, with no hours field then; from one hour on the hour count is printed with no leading zero |
| TimeFormat.SplitClock | LazyTimer/TimerManager.swift:101-103 | for a count from zero up, the truncated hour, minute and second fields add back up to the count, minutes and seconds below 60, and hours positive exactly from 3600 on |
| TimeFormat.ReadShort | LazyTimer/TimerManager.swift:108 | "MM:SS" built from minutes and seconds below 60 reads back as those fields |
| TimeFormat.ReadLong | LazyTimer/TimerManager.swift:105-106 | "H:MM:SS" with a positive hour count reads back as its three fields |
| TimeFormat.NinetySeconds | LazyTimer/TimerManager.swift:100-109 | 90 seconds are shown as "01:30" |
| HexColor.FirstAlphanumeric | LazyTimer/GradientBackground.swift:53 | the trim's left end: everything before it is non-alphanumeric, and it is the end of the text or an alphanumeric character |
| HexColor.EndOfAlphanumeric | LazyTimer/GradientBackground.swift:53 | the trim's right end: everything after it is non-alphanumeric, and the character before it is alphanumeric unless nothing is left |
| HexColor.Trim | LazyTimer/GradientBackground.swift:53 | the trimmed text is a contiguous slice of the input; everything cut off before and after it is non-alphanumeric; it is empty or starts and ends alphanumeric, so characters inside are kept |
| HexColor.HexRun | LazyTimer/GradientBackground.swift:55 | the scanner consumes the longest run of leading hexadecimal digits |
| HexColor.ScanHex | LazyTimer/GradientBackground.swift:54-55 | after an optional "0x"/"0X" prefix, the value is that of the longest leading run of hex digits (`HexRun`), 0 when the run is empty, so "12zz" scans as 0x12; an all-hex text scans to its full value; the value is below 16 to the power of the text's length |
| HexColor.Channels | LazyTimer/GradientBackground.swift:57-66 | for a value that fits the digit count, every channel is at most 255; counts other than 3, 6 and 8 give opaque black; alpha is 255 unless there are 8 digits |
| HexColor.Decode | LazyTimer/GradientBackground.swift:52-66 | for any text every channel is in 0..255; trimmed lengths other than 3, 6 and 8 give opaque black (255, 0, 0, 0); alpha is 255 unless there are 8 digits |
| HexColor.DecodeEncodeRgb | LazyTimer/GradientBackground.swift:60-61 | decoding "#RRGGBB" gives alpha 255 and red, green and blue from bytes 2, 1 and 0 of the value |
| HexColor.DecodeEncodeArgb | LazyTimer/GradientBackground.swift:62-63 | decoding "#AARRGGBB" gives back all four bytes in ARGB order, alpha from the top byte |
| HexColor.DecodeEncodeShort | LazyTimer/GradientBackground.swift:58-59 | decoding "#RGB" gives each nibble times 17, with alpha 255 |
| HexColor.TrimScanHashed | LazyTimer/GradientBackground.swift:53-55 | "#" followed by hex digits trims to the digits, which scan to their full value |
| Presets.SelectedGradient | LazyTimer/TimerManager.swift:69-74 | an in-range index selects that preset; any other index selects preset 10; the result is always a table entry |
| Presets.TableShape | LazyTimer/GradientBackground.swift:89-172 | the table has 15 entries, so index 10 is valid; the first two are the transparent and custom-image presets, and every mesh preset has 9 colours |
| Presets.SamePresetIffSameIndex | LazyTimer/GradientBackground.swift:84-86 | name equality holds between two table entries exactly when they are the same entry |
| Presets.SamePresetIgnoresColours | LazyTimer/GradientBackground.swift:84-86 | presets with the same name are equal whatever their colours and kind |
| TimerModel.Initial | LazyTimer/TimerManager.swift:34-67 | launch state: paused Pomodoro work session, no sessions done, 1500 s left (the work duration times 60), no timer, stopwatch at 0 |
| TimerEngine.StartTimer | LazyTimer/TimerManager.swift:132-138 | a timer is stored and the live-timer count grows by one; a timer stored before is lost, not stopped |
| TimerEngine.StopTimer | LazyTimer/TimerManager.swift:140-143 | the stored timer is gone; lost timers are untouched |
| TimerEngine.ToggleTimer | LazyTimer/TimerManager.swift:123-130 | the running flag flips, nothing else but the timer changes, and the timer invariant is kept |
| TimerEngine.SwitchSession | LazyTimer/TimerManager.swift:225-235 | sets the session and loads its configured minutes times 60; running flag, counters and everything else untouched |
| TimerEngine.ShowCompletionMessage | LazyTimer/TimerManager.swift:201-208 | the message is shown with the given text and one more auto-dismiss is pending |
| TimerEngine.DismissCompletionMessage | LazyTimer/TimerManager.swift:252-254 | hides the message; the pending auto-dismiss callbacks stay pending |
| TimerEngine.AutoDismiss | LazyTimer/TimerManager.swift:205-207 | a pending callback fires: the message is hidden and one fewer callback is pending |
| TimerEngine.PlayCustomSound | LazyTimer/TimerManager.swift:210-223 | beeps when no sound file is configured, otherwise plays the file; state untouched |
| TimerEngine.ExecuteCompletionAction | LazyTimer/TimerManager.swift:178-192 | exactly one effect, the one the configured action calls for; only the message action changes state |
| TimerEngine.HandleSessionComplete | LazyTimer/TimerManager.swift:160-176 | paused with no timer; exactly one configured effect; a completed work session raises the count by one and leads to a long break exactly when the new count is a multiple of 4, else a short break; a completed break leads to work with the count unchanged; the new session's full length is loaded; the completion action's own state change is kept (for the message action: its text set and exactly one more auto-dismiss pending; otherwise message fields untouched); mode, stopwatch and settings untouched |
| TimerEngine.Tick | LazyTimer/TimerManager.swift:145-158 | Pomodoro with time left: one second less and nothing else; with none left: completion; stopwatch: one more second and nothing else; clock: no change |
| TimerEngine.Reset | LazyTimer/TimerManager.swift:237-250 | paused with no timer, message hidden; Pomodoro reloads the current session's full length, the stopwatch returns to 0, the clock only stops; every other field (session, count, labels, durations, completion settings, message text, pending auto-dismisses, gradient) untouched; invariant kept |
| TimerEngine.SetMode | LazyTimer/ContentView.swift:109 | choosing a mode changes only the mode; both counters and the running timer are kept |
| TimerEngine.SessionLabel | LazyTimer/TimerManager.swift:92-98 | the label shown is the custom label of the current session: work, short break or long break |
| TimerEngine.SecondIsOneTick | LazyTimer/TimerManager.swift:132-143 | under the invariant, a second of wall time is exactly one tick while running and nothing while paused |
| TimerEngine.StrayTimerTicksTwice | LazyTimer/TimerManager.swift:132-138 | with one lost timer beside the stored one, the stopwatch gains two seconds per second |
| TimerEngine.ResetLeavesCallbackPending | LazyTimer/TimerManager.swift:237-250 | show, reset, show again: reset hides the first message, two callbacks are pending, and the earlier one hides the second message |
| TimerEngine.EarlierCallbackHidesNextMessage | LazyTimer/TimerManager.swift:205-207 | show, dismiss, show again: the earlier callback hides the second message |
| TimerRuns.IdleSeconds | LazyTimer/TimerManager.swift:123-143 | while paused, any number of seconds changes nothing and causes no effect |
| TimerRuns.Countdown | LazyTimer/TimerManager.swift:146-149 | a running countdown with k seconds left reaches exactly 0 after k seconds, with no effect and nothing else changed |
| TimerRuns.CompletesAtOnce | LazyTimer/TimerManager.swift:146-151 | with k seconds left, the session completes on second k + 1, one second after the display first shows 0 |
| TimerRuns.CompletesOnce | LazyTimer/TimerManager.swift:146-151 | with k seconds left, any run of n > k seconds completes the session exactly once: one configured effect, paused, invariant kept |
| TimerRuns.StopwatchCounts | LazyTimer/TimerManager.swift:153-154 | a running stopwatch gains exactly n seconds in n seconds |
| TimerRuns.FirstWorkSession | LazyTimer/TimerManager.swift:145-176 | from launch, 1500 s later the display is at 0 with no effect; at 1501 s there has been one beep, one session done, and a paused 300 s short break |
| TimerRuns.NinetySecondStopwatch | LazyTimer/TimerManager.swift:153-154 | a stopwatch started at launch shows 90 s, "01:30", after ninety seconds |
| TimerRuns.ResetIdempotent | LazyTimer/TimerManager.swift:237-250 | resetting twice equals resetting once |
| TimerRuns.InvariantPreserved | LazyTimer/TimerManager.swift:123-143 | toggle, reset, completion, tick, a second of time, session switch, mode change, completion action and message steps all keep "timer stored exactly while running, none lost" |
| TimerRuns.WorkThenBreak | LazyTimer/TimerManager.swift:166-175 | one work completion raises the count and picks the break by the new count; the break's completion returns to work with the count unchanged |
| TimerRuns.TwoMore | LazyTimer/TimerManager.swift:166-175 | two completions from a work session lead back to a work session with one more session done |
| TimerRuns.Cycle | LazyTimer/TimerManager.swift:166-175 | from a work session with c done, 2k completions later it is a work session with c + k done |
| TimerRuns.BreakAfterCycle | LazyTimer/TimerManager.swift:166-172 | the completion after 2k from a work session with c done leaves c + k + 1 done and a break that is long exactly when c + k + 1 is a multiple of 4 |
| TimerRuns.LongBreakEveryFourth | LazyTimer/TimerManager.swift:166-172 | from launch, the k-th break is long exactly when k is a multiple of 4 |
| PomodoroView.OpenTimeEditor | LazyTimer/Views/PomodoroView.swift:62-74 | the editor opens exactly when not running; its fields read back as the minutes and the remaining seconds of the time left, the seconds as two digits |
| PomodoroView.SetTime | LazyTimer/Views/PomodoroView.swift:169-174 | unreadable fields count as 0; the time left becomes minutes * 60 + seconds and nothing else changes; it traps (None) exactly when that arithmetic overflows |
| PomodoroView.EditTimeRoundTrip | LazyTimer/Views/PomodoroView.swift:62-174 | opening the editor and pressing "Set Time" unchanged leaves the engine as it was |
| PomodoroView.SaveLabel | LazyTimer/Views/PomodoroView.swift:198-208 | afterwards `sessionLabel` is the edited text; the other two labels and the rest of the engine are unchanged |
| PomodoroView.EditLabelRoundTrip | LazyTimer/Views/PomodoroView.swift:84-208 | saving the label the editor opened with changes nothing |
| ClockView.QuickFocus | LazyTimer/Views/ClockView.swift:56-61 | Pomodoro mode, work session, and 5, 15 or 25 minutes loaded; running flag, timer, session count and stopwatch untouched; the timer invariant is kept |
| ClockView.QuickFocusIgnoresDurations | LazyTimer/Views/ClockView.swift:59 | the time loaded does not depend on the configured durations |
| Panels.HideOverlay | LazyTimer/OverlayWindowController.swift:47-51 | no overlay panel and `isOverlayVisible` false afterwards; the completion panel is untouched |
| Panels.ShowOverlay | LazyTimer/OverlayWindowController.swift:9-45 | with a panel up it hides it (toggle); with no main screen nothing changes; otherwise the panel is present and visible; the published flag keeps matching the panel |
| Panels.ShowCompletionOverlay | LazyTimer/OverlayWindowController.swift:53-83 | with a main screen a completion panel is stored, and a panel stored before is left orphaned on screen; the overlay panel is untouched |
| Panels.HideCompletionOverlay | LazyTimer/OverlayWindowController.swift:85-88 | the completion panel is gone; the overlay panel is untouched |
| Panels.CompletionOverlayRoundTrip | LazyTimer/OverlayWindowController.swift:53-88 | showing then hiding the completion panel changes nothing but the orphan count, by the panel showing overwrote; both keep the overlay flag matching its panel |
| Panels.HideFloating | LazyTimer/FloatingWindowController.swift:85-88 | no floating panel afterwards |
| Panels.ShowFloating | LazyTimer/FloatingWindowController.swift:51-83 | toggles: a panel is present afterwards exactly when none was before, whatever the screen |
| Panels.HideIdempotent | LazyTimer/OverlayWindowController.swift:47-51 | hiding the overlay or the floating panel twice equals hiding once |
| Panels.ShowTwiceToggles | LazyTimer/FloatingWindowController.swift:52-55 | two shows from nothing end with no panel, so at most one panel is ever held |
| WindowManager.Teardown | LazyTimer/WindowManager.swift:24-31 | takes down exactly the surface of the active mode (main window, overlay or floating panel) and no other |
| WindowManager.Activate | LazyTimer/WindowManager.swift:36-49 | brings up exactly the surface of the active mode: the main window when it exists, the overlay panel (toggled, and only with a main screen) or the floating panel; the mode itself is unchanged |
| WindowManager.SwitchTo | LazyTimer/WindowManager.swift:22-50 | afterwards the active mode is the requested one; keeps "overlay panel held only in overlay mode, floating panel only in floating mode, flag matches panel"; under it, floating ends with its panel, overlay with its panel exactly when there is a main screen, and window mode with the main window shown when it exists |
| WindowManager.SwitchTwiceStaysShown | LazyTimer/WindowManager.swift:22-50 | switching twice to the same mode leaves that mode's surface shown |
| WindowManager.SwitchAll | LazyTimer/WindowManager.swift:22-50 | any sequence of switches keeps the invariant and ends in the last requested mode |
| WindowManager.InitialInvariant | LazyTimer/WindowManager.swift:8-18 | at launch the active mode is the window and no panel is held, so the switch invariant holds from the start |
| WindowManager.CompletionOverlayKeepsInvariant | LazyTimer/OverlayWindowController.swift:53-88 | showing or hiding the completion panel, in any mode, keeps the display invariant |
| WindowManager.StaleOverlayToggledOff | LazyTimer/WindowManager.swift:44-45 | an overlay panel left over in window mode is closed, not shown, by a switch to overlay |
| WindowManager.ShowSettings | LazyTimer/WindowManager.swift:67-90 | only a stored settings window is brought to the front; nothing is ever stored |
| WindowManager.ToggleSettings | LazyTimer/WindowManager.swift:52-60 | the outcome is that of `showSettings` whatever the display state |
| WindowManager.SettingsNeverShown | LazyTimer/WindowManager.swift:63-90 | starting without a settings window, toggling settings shows none and stores none |

## Left out

- Rendering: gradients and their angles, mesh backgrounds, fonts, opacity, overlay positioning, the menu-bar label, and every SwiftUI layout. These are presentation only.
- Floating point: the hex-to-`Double` division by 255, the gradient trigonometry, and panel placement from the screen frame. Only the integer channels are modelled.
- Wall-clock and date text (`formatClock`, `formattedDate`, the clock view's time). These depend on the current time and locale.
- Real scheduling. A tick is an explicit step. The repeating timer is a flag plus a count of lost timers. The 5-second auto-dismiss is a pending-callback count, fired by `TimerEngine.AutoDismiss` without modelling the delay itself.
- Foreign side effects: `NSSound.beep`, launching `/usr/bin/say`, `AVAudioPlayer`, and image loading. These are effect values. A sound file that fails to play also falls back to a beep in the app; that failure depends on the audio system and is not modelled, so a non-empty path always yields `PlayFile`.
- Window and panel construction, and screen lookup. These are reduced to present/absent flags plus the `Environment` parameters "main screen exists" and "main window exists". `switchTo(.window)` re-shows the first window titled "LazyTimer" or not visible. The model treats that as the main window whenever one exists.
- The completion overlay. Nothing in the app calls `showCompletionOverlay`, so `Panels.ShowCompletionOverlay`, its orphan count and `Panels.HideCompletionOverlay` follow the controller's code alone; a completion only sets the message fields of the engine.
- The settings window. `showSettings` builds a window it never shows or stores, so only that outcome is modelled. The timer-settings tab, including the duration steppers, is never displayed, so durations are plain configuration values with no bounds.
- Settings edits that only the views read (opacity, position, subtitle, fonts, custom image path), the preset picker (a plain index assignment), and the completion-action picker and text fields (plain assignments to `completion`). App wiring such as keyboard shortcuts and scene setup only calls `switchTo`.
- TimerEngine.Tick: the stopwatch count and the session count are unbounded. The app's 64-bit `Int` would trap after 2^63 increments, which is not reachable in practice.
- TimerEngine.SwitchSession: `minutes * 60` is not checked for overflow. The durations are never edited in the running app.
- TimeFormat.FormatSeconds: the hours field goes through `%d`. Hour counts beyond 32 bits are not modelled.
- HexColor.Trim: the app trims with Unicode's alphanumeric set. The model uses ASCII letters and digits, so non-ASCII letters count as non-alphanumeric here. The digit count is taken as the number of characters, where the app counts grapheme clusters.
- HexColor.ScanHex: leading-blank skipping and the scanner's overflow value are not modelled. Trimmed text never starts with a blank, and only values with at most 8 digits are used.

=== FILE: clock_view.dfy ===
/** The one engine-changing action of the clock view: the "Quick Focus"
    buttons. */
module ClockView {
  import opened TimerModel

  /** The minutes offered by the quick-focus buttons. */
  const QuickFocusMinutes: seq<int> := [5, 15, 25]

  /** A quick-focus button: switches to Pomodoro mode and a work session
      with the chosen number of minutes left. It assigns the session
      directly instead of calling `switchSession`, so the configured work
      length is not consulted; it neither starts nor stops the timer. */
  function QuickFocus(s: TimerState, minutes: int): (t: TimerState)
    requires minutes in QuickFocusMinutes
    ensures t.mode == Pomodoro && t.currentSession == Work
    ensures t.pomodoroTime == minutes * 60 && t.pomodoroTime in {300, 900, 1500}
    ensures t.isRunning == s.isRunning && t.timerScheduled == s.timerScheduled
    ensures t.sessionCount == s.sessionCount && t.stopwatchTime == s.stopwatchTime
    ensures t == s.(mode := Pomodoro, currentSession := Work, pomodoroTime := t.pomodoroTime)
    ensures TimerInvariant(s) ==> TimerInvariant(t)
  {
    s.(mode := Pomodoro, pomodoroTime := minutes * 60, currentSession := Work)
  }

  /** The time loaded does not depend on the configured work length. */
  lemma QuickFocusIgnoresDurations(s: TimerState, minutes: int, d: Durations)
    requires minutes in QuickFocusMinutes
    ensures QuickFocus(s.(durations := d), minutes).pomodoroTime == QuickFocus(s, minutes).pomodoroTime
  {
  }
}

=== FILE: decimal.dfy ===
/** Decimal text as the Swift standard library reads and writes it:
    `String(n)` for an `Int`, the failable `Int(text)` initializer, and the
    `%02d` conversion of `String(format:)`. */
module Decimal {
  import opened Wrappers
  import SwiftInt

  predicate IsDigit(c: char) {
    '0' <= c <= '9'
  }

  predicate AllDigits(s: string) {
    forall i :: 0 <= i < |s| ==> IsDigit(s[i])
  }

  function DigitChar(d: int): (c: char)
    requires 0 <= d < 10
    ensures IsDigit(c) && c as int - '0' as int == d
  {
    ('0' as int + d) as char
  }

  /** The value of a string of decimal digits (leading zeros allowed). */
  function ValueOf(s: string): nat
    requires AllDigits(s)
  {
    if s == [] then 0 else ValueOf(s[..|s| - 1]) * 10 + (s[|s| - 1] as int - '0' as int)
  }

  /** The shortest decimal rendering of a natural number. */
  function Digits(n: nat): (s: string)
    ensures |s| >= 1 && AllDigits(s)
    ensures n > 0 ==> s[0] != '0'
    ensures n < 10 ==> |s| == 1
    ensures 10 <= n < 100 ==> |s| == 2
  {
    if n < 10 then [DigitChar(n)] else Digits(n / 10) + [DigitChar(n % 10)]
  }

  /** Reading back a rendered number gives the number. */
  lemma {:induction false} DigitsValue(n: nat)
    ensures ValueOf(Digits(n)) == n
  {
    if n >= 10 {
      var s := Digits(n);
      assert s[..|s| - 1] == Digits(n / 10);
      DigitsValue(n / 10);
    }
  }

  /** `String(x)` for a Swift `Int`: an optional minus sign, then the digits. */
  function IntString(x: int): (s: string)
    ensures |s| >= 1
    ensures x >= 0 <==> IsDigit(s[0])
    ensures x < 0 <==> s[0] == '-'
    ensures x > 0 ==> s[0] != '0'
  {
    if x < 0 then "-" + Digits(-x) else Digits(x)
  }

  /** "-" followed by one or more digits. */
  predicate Negative(s: string) {
    |s| >= 2 && s[0] == '-' && AllDigits(s[1..])
  }

  /** "+" followed by one or more digits. */
  predicate Positive(s: string) {
    |s| >= 2 && s[0] == '+' && AllDigits(s[1..])
  }

  /** Swift's failable `Int(text)`: an optional `+` or `-` sign followed by one
      or more ASCII digits and nothing else, whose value fits in an `Int`;
      anything else (empty text, spaces, letters, overflow) gives nil. */
  function ParseInt(s: string): (r: Option<int>)
    ensures r.Some? ==> SwiftInt.InRange(r.value)
    ensures |s| == 0 ==> r.None?
    ensures |s| >= 1 && !IsDigit(s[0]) && s[0] != '-' && s[0] != '+' ==> r.None?
    ensures AllDigits(s) && |s| >= 1 && SwiftInt.InRange(ValueOf(s)) ==> r == Some(ValueOf(s))
    ensures Negative(s) && SwiftInt.InRange(-(ValueOf(s[1..]) as int)) ==> r == Some(-(ValueOf(s[1..]) as int))
    ensures Positive(s) && SwiftInt.InRange(ValueOf(s[1..])) ==> r == Some(ValueOf(s[1..]))
    ensures r.Some? <==>
      || (AllDigits(s) && |s| >= 1 && SwiftInt.InRange(ValueOf(s)))
      || (Negative(s) && SwiftInt.InRange(-(ValueOf(s[1..]) as int)))
      || (Positive(s) && SwiftInt.InRange(ValueOf(s[1..])))
  {
    if |s| == 0 then None
    else if s[0] == '-' || s[0] == '+' then
      var body := s[1..];
      if |body| == 0 || !AllDigits(body) then None
      else
        var v: int := if s[0] == '-' then -(ValueOf(body) as int) else ValueOf(body);
        if SwiftInt.InRange(v) then Some(v) else None
    else if AllDigits(s) && SwiftInt.InRange(ValueOf(s)) then Some(ValueOf(s))
    else None
  }

  /** `String(format: "%02d", x)`: `%d` reads the low 32 bits of `x` as a C
      `int`, which is printed with at least two characters, zero-padded on
      the left; a negative number already has two characters ("-5"). */
  function Pad2(x: int): (s: string)
    ensures |s| >= 2
    ensures 0 <= x < 100 ==> |s| == 2 && AllDigits(s) && ValueOf(s) == x
    ensures 0 <= SwiftInt.Int32(x) < 100 ==>
      |s| == 2 && AllDigits(s) && ValueOf(s) == SwiftInt.Int32(x)
  {
    var y := SwiftInt.Int32(x);
    if 0 <= y < 10 then
      var s := "0" + Digits(y);
      assert s[..1] == "0" && ValueOf(s[..1]) == 0;
      s
    else if y >= 10 then
      DigitsValue(y);
      IntString(y)
    else
      IntString(y)
  }

  /** `Int(String(x)) == x` for every representable `x`. */
  lemma ParseIntString(x: int)
    requires SwiftInt.InRange(x)
    ensures ParseInt(IntString(x)) == Some(x)
  {
    if x < 0 {
      var s := IntString(x);
      assert s[1..] == Digits(-x);
      DigitsValue(-x);
    } else {
      DigitsValue(x);
    }
  }

  /** `Int(String(format: "%02d", x))` gives back the 32-bit value that
      `%d` printed: `x` itself whenever `x` fits in 32 bits. */
  lemma ParsePad2(x: int)
    requires SwiftInt.InRange(x)
    ensures ParseInt(Pad2(x)) == Some(SwiftInt.Int32(x))
    ensures -0x8000_0000 <= x < 0x8000_0000 ==> ParseInt(Pad2(x)) == Some(x)
  {
    var y := SwiftInt.Int32(x);
    if !(0 <= y < 10) {
      ParseIntString(y);
    }
  }

  /** A value beyond 32 bits does not survive `%02d`: 2^32 prints as "00". */
  lemma Pad2Truncates()
    ensures Pad2(0x1_0000_0000) == "00"
    ensures ParseInt(Pad2(0x1_0000_0000)) == Some(0)
  {
    ParsePad2(0x1_0000_0000);
  }
}

=== FILE: hex_color.dfy ===
/** The integer part of `Color(hex:)`: trim the text, scan it as a
    hexadecimal number, and split that number into alpha, red, green and
    blue bytes according to how many characters the trimmed text has. */
module HexColor {

  /** Channel values as the source computes them, before the division by 255. */
  datatype Argb = Argb(a: nat, r: nat, g: nat, b: nat)

  const OpaqueBlack := Argb(255, 0, 0, 0)

  predicate IsAlphanumeric(c: char) {
    'a' <= c <= 'z' || 'A' <= c <= 'Z' || '0' <= c <= '9'
  }

  /** No character of `s[lo..hi]` is alphanumeric. */
  predicate NoAlphanumeric(s: string, lo: nat, hi: nat)
    requires lo <= hi <= |s|
  {
    forall i :: lo <= i < hi ==> !IsAlphanumeric(s[i])
  }

  /** The index of the first alphanumeric character at or after `i`, or
      `|s|` when there is none. */
  function FirstAlphanumeric(s: string, i: nat): (j: nat)
    requires i <= |s|
    ensures i <= j <= |s| && NoAlphanumeric(s, i, j)
    ensures j < |s| ==> IsAlphanumeric(s[j])
    decreases |s| - i
  {
    if i == |s| || IsAlphanumeric(s[i]) then i else FirstAlphanumeric(s, i + 1)
  }

  /** The end of the last alphanumeric character in `s[lo..hi]`, or `lo`
      when there is none. */
  function EndOfAlphanumeric(s: string, lo: nat, hi: nat): (j: nat)
    requires lo <= hi <= |s|
    ensures lo <= j <= hi && NoAlphanumeric(s, j, hi)
    ensures j > lo ==> IsAlphanumeric(s[j - 1])
    decreases hi
  {
    if hi == lo || IsAlphanumeric(s[hi - 1]) then hi else EndOfAlphanumeric(s, lo, hi - 1)
  }

  /** Where the trimmed text starts and ends. */
  function TrimStart(s: string): nat {
    FirstAlphanumeric(s, 0)
  }

  function TrimEnd(s: string): nat {
    EndOfAlphanumeric(s, TrimStart(s), |s|)
  }

  /** `trimmingCharacters(in: CharacterSet.alphanumerics.inverted)`: the
      slice left after removing non-alphanumerics at both ends only; it is
      empty or starts and ends with an alphanumeric character, and what
      was cut off holds no alphanumeric character. */
  function Trim(s: string): (t: string)
    ensures TrimStart(s) <= TrimEnd(s) <= |s| && t == s[TrimStart(s)..TrimEnd(s)]
    ensures NoAlphanumeric(s, 0, TrimStart(s)) && NoAlphanumeric(s, TrimEnd(s), |s|)
    ensures t == [] || (IsAlphanumeric(t[0]) && IsAlphanumeric(t[|t| - 1]))
  {
    var a := TrimStart(s);
    var b := TrimEnd(s);
    assert a < |s| ==> a < b;
    s[a..b]
  }

  predicate IsHexDigit(c: char) {
    '0' <= c <= '9' || 'a' <= c <= 'f' || 'A' <= c <= 'F'
  }

  predicate AllHex(s: string) {
    forall i :: 0 <= i < |s| ==> IsHexDigit(s[i])
  }

  function HexDigitValue(c: char): (v: nat)
    requires IsHexDigit(c)
    ensures v < 16
  {
    if '0' <= c <= '9' then c as int - '0' as int
    else if 'a' <= c <= 'f' then c as int - 'a' as int + 10
    else c as int - 'A' as int + 10
  }

  function Pow16(n: nat): (p: nat)
    ensures p >= 1
  {
    if n == 0 then 1 else 16 * Pow16(n - 1)
  }

  /** The value of a string of hexadecimal digits. */
  function HexValue(s: string): (v: nat)
    requires AllHex(s)
    ensures v < Pow16(|s|)
  {
    if s == [] then 0 else HexValue(s[..|s| - 1]) * 16 + HexDigitValue(s[|s| - 1])
  }

  /** The number of leading hexadecimal digits. */
  function HexRun(s: string): (n: nat)
    ensures n <= |s| && AllHex(s[..n])
    ensures n < |s| ==> !IsHexDigit(s[n])
  {
    if s != [] && IsHexDigit(s[0]) then
      var n := 1 + HexRun(s[1..]);
      assert s[..n] == [s[0]] + s[1..][..n - 1];
      n
    else
      0
  }

  /** The text starts with "0x" or "0X". */
  predicate HexPrefix(h: string) {
    |h| >= 2 && h[0] == '0' && (h[1] == 'x' || h[1] == 'X')
  }

  /** `Scanner.scanHexInt64`: an optional "0x"/"0X" prefix, then as many
      hexadecimal digits as there are; 0 when there are none. The trimmed
      text has no leading blanks to skip, and the values that matter have
      at most eight digits, so the scanner's overflow case never arises. */
  function ScanHex(h: string): (v: nat)
    ensures v < Pow16(|h|)
    ensures AllHex(h) ==> v == HexValue(h)
    ensures |h| >= 2 && (h[..2] == "0x" || h[..2] == "0X") && AllHex(h[2..]) ==> v == HexValue(h[2..])
    ensures !HexPrefix(h) ==> v == HexValue(h[..HexRun(h)])
    ensures HexPrefix(h) ==> v == HexValue(h[2..][..HexRun(h[2..])])
  {
    var body := if HexPrefix(h) then h[2..] else h;
    assert AllHex(body) ==> body[..HexRun(body)] == body by {
      if AllHex(body) {
        HexRunAll(body);
        assert body[..|body|] == body;
      }
    }
    assert AllHex(h) ==> body == h by {
      if AllHex(h) && |h| >= 2 {
        assert IsHexDigit(h[1]);
      }
    }
    var digits := body[..HexRun(body)];
    PowMonotone(|digits|, |h|);
    HexValue(digits)
  }

  lemma {:induction false} PowMonotone(m: nat, n: nat)
    requires m <= n
    ensures Pow16(m) <= Pow16(n)
  {
    if m < n {
      PowMonotone(m, n - 1);
    }
  }

  /** Splits a scanned value into channels by the digit count: 3 digits
      are RGB nibbles scaled by 17, 6 digits are RGB bytes, 8 digits are
      ARGB bytes; any other count is opaque black. */
  function Channels(count: nat, v: nat): (c: Argb)
    requires v < Pow16(count)
    ensures c.a <= 255 && c.r <= 255 && c.g <= 255 && c.b <= 255
    ensures count != 3 && count != 6 && count != 8 ==> c == OpaqueBlack
    ensures count != 8 ==> c.a == 255
  {
    if count == 3 then
      Argb(255, (v / 256) * 17, (v / 16 % 16) * 17, (v % 16) * 17)
    else if count == 6 then
      Argb(255, v / 65536, v / 256 % 256, v % 256)
    else if count == 8 then
      Argb(v / 16777216, v / 65536 % 256, v / 256 % 256, v % 256)
    else
      OpaqueBlack
  }

  /** `Color(hex:)`, integer part. */
  function Decode(text: string): (c: Argb)
    ensures c.a <= 255 && c.r <= 255 && c.g <= 255 && c.b <= 255
    ensures |Trim(text)| != 3 && |Trim(text)| != 6 && |Trim(text)| != 8 ==> c == OpaqueBlack
    ensures |Trim(text)| != 8 ==> c.a == 255
  {
    var h := Trim(text);
    Channels(|h|, ScanHex(h))
  }

  // The inverse direction: writing a colour as "#RRGGBB", "#AARRGGBB" or
  // "#RGB", the forms the preset table uses.

  function HexChar(d: nat): (c: char)
    requires d < 16
    ensures IsHexDigit(c) && HexDigitValue(c) == d
  {
    if d < 10 then ('0' as int + d) as char else ('a' as int + d - 10) as char
  }

  /** Two lower-case hexadecimal digits for a byte. */
  function Hex2(x: nat): (s: string)
    requires x < 256
    ensures |s| == 2 && AllHex(s) && HexValue(s) == x
  {
    var s := [HexChar(x / 16), HexChar(x % 16)];
    assert s[..1] == [HexChar(x / 16)];
    s
  }

  function EncodeRgb(r: nat, g: nat, b: nat): (s: string)
    requires r < 256 && g < 256 && b < 256
  {
    "#" + Hex2(r) + Hex2(g) + Hex2(b)
  }

  function EncodeArgb(c: Argb): (s: string)
    requires c.a < 256 && c.r < 256 && c.g < 256 && c.b < 256
  {
    "#" + Hex2(c.a) + Hex2(c.r) + Hex2(c.g) + Hex2(c.b)
  }

  function EncodeShort(r: nat, g: nat, b: nat): (s: string)
    requires r < 16 && g < 16 && b < 16
  {
    "#" + [HexChar(r), HexChar(g), HexChar(b)]
  }

  lemma {:induction false} HexValueAppend(x: string, y: string)
    requires AllHex(x) && AllHex(y)
    ensures AllHex(x + y)
    ensures HexValue(x + y) == HexValue(x) * Pow16(|y|) + HexValue(y)
  {
    var xy := x + y;
    assert AllHex(xy) by {
      forall i | 0 <= i < |xy| ensures IsHexDigit(xy[i]) {
        if i < |x| { assert xy[i] == x[i]; } else { assert xy[i] == y[i - |x|]; }
      }
    }
    if y != [] {
      var y' := y[..|y| - 1];
      var last := HexDigitValue(y[|y| - 1]);
      assert xy[..|xy| - 1] == x + y';
      assert xy[|xy| - 1] == y[|y| - 1];
      HexValueAppend(x, y');
      assert HexValue(xy) == HexValue(x + y') * 16 + last;
      assert HexValue(y) == HexValue(y') * 16 + last;
      assert Pow16(|y|) == Pow16(|y'|) * 16;
      Regroup(HexValue(x), Pow16(|y'|), HexValue(y'), last);
    } else {
      assert xy == x;
    }
  }

  lemma Regroup(a: int, p: int, b: int, d: int)
    ensures (a * p + b) * 16 + d == a * (p * 16) + (b * 16 + d)
  {
  }

  /** A text of hexadecimal digits is scanned in full. */
  lemma {:induction false} HexRunAll(s: string)
    requires AllHex(s)
    ensures HexRun(s) == |s|
  {
    if s != [] {
      HexRunAll(s[1..]);
    }
  }

  /** "#" followed by hexadecimal digits trims to the digits and scans to their value. */
  lemma TrimScanHashed(d: string)
    requires |d| >= 1 && AllHex(d)
    ensures Trim("#" + d) == d
    ensures ScanHex(d) == HexValue(d)
  {
    TrimHashed(d);
    ScanAllHex(d);
  }

  lemma TrimHashed(d: string)
    requires |d| >= 1 && AllHex(d)
    ensures Trim("#" + d) == d
  {
    var s := "#" + d;
    assert !IsAlphanumeric(s[0]) && IsAlphanumeric(s[1]);
    assert TrimStart(s) == 1;
    assert IsAlphanumeric(s[|s| - 1]);
    assert TrimEnd(s) == |s|;
    assert s[1..] == d;
  }

  lemma ScanAllHex(d: string)
    requires AllHex(d)
    ensures ScanHex(d) == HexValue(d)
  {
    HexRunAll(d);
    assert |d| >= 2 ==> d[1] != 'x' && d[1] != 'X' by {
      if |d| >= 2 { assert IsHexDigit(d[1]); }
    }
    assert d[..|d|] == d;
  }

  /** Division by `m`, a power of sixteen, takes `hi * m + lo` apart again. */
  lemma DivSplit(x: nat, hi: nat, lo: nat, m: nat)
    requires m == 16 || m == 256 || m == 65536 || m == 16777216
    requires lo < m && x == hi * m + lo
    ensures x / m == hi && x % m == lo
  {
    if m == 16 {
      assert x == hi * 16 + lo;
    } else if m == 256 {
      assert x == hi * 256 + lo;
    } else if m == 65536 {
      assert x == hi * 65536 + lo;
    } else {
      assert x == hi * 16777216 + lo;
    }
  }

  /** Decoding "#" followed by hex digits splits the digits' value. */
  lemma DecodeHashed(d: string)
    requires |d| >= 1 && AllHex(d)
    ensures HexValue(d) < Pow16(|d|)
    ensures Decode("#" + d) == Channels(|d|, HexValue(d))
  {
    TrimScanHashed(d);
  }

  /** Decoding "#RRGGBB" gives back the opaque colour it was written from. */
  lemma DecodeEncodeRgb(r: nat, g: nat, b: nat)
    requires r < 256 && g < 256 && b < 256
    ensures Decode(EncodeRgb(r, g, b)) == Argb(255, r, g, b)
  {
    var d := Hex2(r) + Hex2(g) + Hex2(b);
    assert EncodeRgb(r, g, b) == "#" + d;
    AppendByte(Hex2(r), g);
    AppendByte(Hex2(r) + Hex2(g), b);
    var v := HexValue(d);
    DecodeHashed(d);
    assert Decode("#" + d) == Channels(6, v);
    SplitRgb(v, r, g, b);
  }

  lemma PowValues()
    ensures Pow16(1) == 16 && Pow16(2) == 256 && Pow16(3) == 4096
    ensures Pow16(4) == 65536 && Pow16(6) == 16777216
  {
    assert Pow16(1) == 16;
    assert Pow16(2) == 256;
    assert Pow16(3) == 4096;
    assert Pow16(4) == 65536;
    assert Pow16(5) == 1048576;
  }

  lemma SplitRgb(v: nat, r: nat, g: nat, b: nat)
    requires r < 256 && g < 256 && b < 256
    requires v == (r * 256 + g) * 256 + b
    ensures v < Pow16(6) && Channels(6, v) == Argb(255, r, g, b)
  {
    PowValues();
    DivSplit(v, r, g * 256 + b, 65536);
    DivSplit(v, r * 256 + g, b, 256);
    DivSplit(r * 256 + g, r, g, 256);
  }

  /** Decoding "#AARRGGBB" gives back the colour, alpha included. */
  lemma DecodeEncodeArgb(c: Argb)
    requires c.a < 256 && c.r < 256 && c.g < 256 && c.b < 256
    ensures Decode(EncodeArgb(c)) == c
  {
    var d := Hex2(c.a) + Hex2(c.r) + Hex2(c.g) + Hex2(c.b);
    assert EncodeArgb(c) == "#" + d;
    ArgbDigits(c);
    var v := HexValue(d);
    DecodeHashed(d);
    assert Decode("#" + d) == Channels(8, v);
    SplitArgb(v, c.a, c.r, c.g, c.b);
  }

  lemma ArgbDigits(c: Argb)
    requires c.a < 256 && c.r < 256 && c.g < 256 && c.b < 256
    ensures var d := Hex2(c.a) + Hex2(c.r) + Hex2(c.g) + Hex2(c.b);
      |d| == 8 && AllHex(d) && HexValue(d) == ((c.a * 256 + c.r) * 256 + c.g) * 256 + c.b
  {
    var ar := Hex2(c.a) + Hex2(c.r);
    AppendByte(Hex2(c.a), c.r);
    AppendByte(ar, c.g);
    AppendByte(ar + Hex2(c.g), c.b);
  }

  /** Appending a byte's two digits shifts the value up by a byte. */
  lemma AppendByte(d: string, x: nat)
    requires AllHex(d) && x < 256
    ensures AllHex(d + Hex2(x)) && HexValue(d + Hex2(x)) == HexValue(d) * 256 + x
  {
    PowValues();
    HexValueAppend(d, Hex2(x));
  }

  lemma SplitArgb(v: nat, a: nat, r: nat, g: nat, b: nat)
    requires a < 256 && r < 256 && g < 256 && b < 256
    requires v == ((a * 256 + r) * 256 + g) * 256 + b
    ensures v < Pow16(8) && Channels(8, v) == Argb(a, r, g, b)
  {
    PowValues();
    assert Pow16(8) == 4294967296 by {
      assert Pow16(7) == 16 * Pow16(6);
    }
    DivSplit(v, a, (r * 256 + g) * 256 + b, 16777216);
    DivSplit(v, a * 256 + r, g * 256 + b, 65536);
    DivSplit(a * 256 + r, a, r, 256);
    DivSplit(v, (a * 256 + r) * 256 + g, b, 256);
    DivSplit((a * 256 + r) * 256 + g, a * 256 + r, g, 256);
  }

  /** Decoding "#RGB" repeats each nibble: the channel is the nibble times 17. */
  lemma DecodeEncodeShort(r: nat, g: nat, b: nat)
    requires r < 16 && g < 16 && b < 16
    ensures Decode(EncodeShort(r, g, b)) == Argb(255, r * 17, g * 17, b * 17)
  {
    var d := [HexChar(r), HexChar(g), HexChar(b)];
    assert EncodeShort(r, g, b) == "#" + d;
    ShortDigits(r, g, b);
    var v := HexValue(d);
    DecodeHashed(d);
    assert Decode("#" + d) == Channels(3, v);
    SplitShort(v, r, g, b);
  }

  lemma ShortDigits(r: nat, g: nat, b: nat)
    requires r < 16 && g < 16 && b < 16
    ensures var d := [HexChar(r), HexChar(g), HexChar(b)];
      |d| == 3 && AllHex(d) && HexValue(d) == (r * 16 + g) * 16 + b
  {
    var d := [HexChar(r), HexChar(g), HexChar(b)];
    HexValueSingle(HexChar(r));
    assert d[..1] == [HexChar(r)];
    assert d[..2][..1] == [HexChar(r)];
    assert d[..2] == [HexChar(r), HexChar(g)];
    assert HexValue(d[..2]) == r * 16 + g;
  }

  lemma HexValueSingle(c: char)
    requires IsHexDigit(c)
    ensures AllHex([c]) && HexValue([c]) == HexDigitValue(c)
  {
    assert [c][..0] == [];
  }

  lemma SplitShort(v: nat, r: nat, g: nat, b: nat)
    requires r < 16 && g < 16 && b < 16
    requires v == (r * 16 + g) * 16 + b
    ensures v < Pow16(3) && Channels(3, v) == Argb(255, r * 17, g * 17, b * 17)
  {
    PowValues();
    DivSplit(v, r, g * 16 + b, 256);
    DivSplit(v, r * 16 + g, b, 16);
    DivSplit(r * 16 + g, r, g, 16);
  }
}

=== FILE: panels.dfy ===
/** The overlay and floating-widget controllers, reduced to which panels
    they hold. A panel is created and shown, or closed and forgotten;
    where it sits on screen and what it draws is not modelled. */
module Panels {

  /** `OverlayWindowController`: the full-screen overlay panel, the
      published `isOverlayVisible` flag, and the separate completion panel.
      `strayCompletionPanels` counts completion panels that were replaced
      while still on screen (the reference is overwritten without closing). */
  datatype OverlayController = OverlayController(
    overlayPanel: bool,
    isOverlayVisible: bool,
    completionPanel: bool,
    strayCompletionPanels: nat
  )

  /** `FloatingWindowController`: whether it holds the floating panel. */
  datatype FloatingController = FloatingController(floatingPanel: bool)

  const NoOverlay := OverlayController(false, false, false, 0)

  /** The published flag tells the truth about the overlay panel. */
  predicate OverlayInvariant(o: OverlayController) {
    o.isOverlayVisible == o.overlayPanel
  }

  /** `hideOverlay`: closes and forgets the overlay panel. */
  function HideOverlay(o: OverlayController): (r: OverlayController)
    ensures !r.overlayPanel && !r.isOverlayVisible && OverlayInvariant(r)
    ensures r.completionPanel == o.completionPanel && r.strayCompletionPanels == o.strayCompletionPanels
  {
    o.(overlayPanel := false, isOverlayVisible := false)
  }

  /** `showOverlay`: a second call while the overlay is up takes it down
      (toggle); without a main screen nothing happens; otherwise the
      overlay panel is created and shown. */
  function ShowOverlay(o: OverlayController, hasMainScreen: bool): (r: OverlayController)
    ensures o.overlayPanel ==> r == HideOverlay(o)
    ensures !o.overlayPanel && !hasMainScreen ==> r == o
    ensures !o.overlayPanel && hasMainScreen ==> r.overlayPanel && r.isOverlayVisible
    ensures r.completionPanel == o.completionPanel && r.strayCompletionPanels == o.strayCompletionPanels
    ensures OverlayInvariant(o) ==> OverlayInvariant(r)
  {
    if o.overlayPanel then HideOverlay(o)
    else if !hasMainScreen then o
    else o.(overlayPanel := true, isOverlayVisible := true)
  }

  /** `showCompletionOverlay`: needs a main screen; stores a new completion
      panel, overwriting (not closing) any panel stored before. The
      overlay panel is left alone. */
  function ShowCompletionOverlay(o: OverlayController, hasMainScreen: bool): (r: OverlayController)
    ensures hasMainScreen ==> r.completionPanel
    ensures !hasMainScreen ==> r == o
    ensures hasMainScreen ==>
      r.strayCompletionPanels == o.strayCompletionPanels + (if o.completionPanel then 1 else 0)
    ensures r.overlayPanel == o.overlayPanel && r.isOverlayVisible == o.isOverlayVisible
  {
    if !hasMainScreen then o
    else o.(completionPanel := true,
            strayCompletionPanels := o.strayCompletionPanels + (if o.completionPanel then 1 else 0))
  }

  /** `hideCompletionOverlay`: closes and forgets the completion panel only. */
  function HideCompletionOverlay(o: OverlayController): (r: OverlayController)
    ensures !r.completionPanel
    ensures r.overlayPanel == o.overlayPanel && r.isOverlayVisible == o.isOverlayVisible
    ensures r.strayCompletionPanels == o.strayCompletionPanels
  {
    o.(completionPanel := false)
  }

  /** `hideFloatingWindow`: closes and forgets the floating panel. */
  function HideFloating(f: FloatingController): (r: FloatingController)
    ensures !r.floatingPanel
  {
    FloatingController(false)
  }

  /** `showFloatingWindow`: a second call while the panel is up takes it
      down (toggle); otherwise a panel is always created, the screen only
      deciding where it is placed. */
  function ShowFloating(f: FloatingController): (r: FloatingController)
    ensures r.floatingPanel <==> !f.floatingPanel
  {
    if f.floatingPanel then HideFloating(f) else FloatingController(true)
  }

  /** The completion panel comes and goes without touching the overlay
      panel or its flag: showing then hiding it leaves only the count of
      orphaned panels changed, by the one that showing overwrote. */
  lemma CompletionOverlayRoundTrip(o: OverlayController)
    ensures OverlayInvariant(o) ==> OverlayInvariant(ShowCompletionOverlay(o, true))
    ensures OverlayInvariant(o) ==> OverlayInvariant(HideCompletionOverlay(o))
    ensures HideCompletionOverlay(ShowCompletionOverlay(o, true)) ==
      o.(completionPanel := false,
         strayCompletionPanels := o.strayCompletionPanels + (if o.completionPanel then 1 else 0))
  {
  }

  /** Hiding is idempotent for both panels. */
  lemma HideIdempotent(o: OverlayController, f: FloatingController)
    ensures HideOverlay(HideOverlay(o)) == HideOverlay(o)
    ensures HideFloating(HideFloating(f)) == HideFloating(f)
  {
  }

  /** Showing twice from nothing ends with nothing: one panel at most, never a second. */
  lemma ShowTwiceToggles(o: OverlayController, hasMainScreen: bool, f: FloatingController)
    requires !o.overlayPanel && hasMainScreen && !f.floatingPanel
    ensures !ShowOverlay(ShowOverlay(o, hasMainScreen), hasMainScreen).overlayPanel
    ensures !ShowFloating(ShowFloating(f)).floatingPanel
  {
  }
}

=== FILE: pomodoro_view.dfy ===
/** The engine-changing actions of the Pomodoro view: the session buttons
    (plain `switchSession`), the time editor and the label editor. */
module PomodoroView {
  import opened Wrappers
  import opened SwiftInt
  import opened Decimal
  import opened TimerModel
  import opened TimerEngine

  /** The two text fields of the time editor. */
  datatype TimeEditor = TimeEditor(minutes: string, seconds: string)

  /** Tapping the time display: disabled while the timer runs; otherwise
      opens the editor with the minutes and the zero-padded seconds of
      the time left. */
  function OpenTimeEditor(s: TimerState): (e: Option<TimeEditor>)
    ensures e.Some? <==> !s.isRunning
    ensures e.Some? && InRange(s.pomodoroTime) ==>
      ParseInt(e.value.minutes) == Some(Quot(s.pomodoroTime, 60))
      && ParseInt(e.value.seconds) == Some(Rem(s.pomodoroTime, 60))
    ensures e.Some? && s.pomodoroTime >= 0 ==>
      |e.value.seconds| == 2 && AllDigits(e.value.seconds) && AllDigits(e.value.minutes)
  {
    if s.isRunning then None
    else
      var minutes := Quot(s.pomodoroTime, 60);
      var seconds := Rem(s.pomodoroTime, 60);
      var editor := TimeEditor(IntString(minutes), Pad2(seconds));
      if InRange(s.pomodoroTime) then
        QuotTimesInRange(s.pomodoroTime, 60);
        ParseIntString(minutes);
        ParsePad2(seconds);
        Some(editor)
      else
        Some(editor)
  }

  /** "Set Time": each field is read with `Int(_:)`, an unreadable field
      counting as 0, and the time left becomes minutes * 60 + seconds.
      Swift traps when that arithmetic overflows; None stands for the trap. */
  function SetTime(s: TimerState, e: TimeEditor): (r: Option<TimerState>)
    ensures var m := ParseInt(e.minutes).GetOr(0); var sec := ParseInt(e.seconds).GetOr(0);
      && (r.Some? <==> InRange(m * 60) && InRange(m * 60 + sec))
      && (r.Some? ==> r.value == s.(pomodoroTime := m * 60 + sec))
  {
    var minutes := ParseInt(e.minutes).GetOr(0);
    var seconds := ParseInt(e.seconds).GetOr(0);
    if InRange(minutes * 60) && InRange(minutes * 60 + seconds) then
      Some(s.(pomodoroTime := minutes * 60 + seconds))
    else
      None
  }

  /** Opening the editor and pressing "Set Time" without typing leaves the
      engine exactly as it was. */
  lemma EditTimeRoundTrip(s: TimerState)
    requires !s.isRunning && InRange(s.pomodoroTime)
    ensures SetTime(s, OpenTimeEditor(s).value) == Some(s)
  {
    var t := s.pomodoroTime;
    QuotTimesInRange(t, 60);
    assert Quot(t, 60) * 60 + Rem(t, 60) == t;
  }

  /** "Save" in the label editor: stores the text as the current session's
      label and leaves the other two labels and the rest of the engine alone. */
  function SaveLabel(s: TimerState, text: string): (t: TimerState)
    ensures SessionLabel(t) == text
    ensures t == s.(labels := t.labels)
    ensures s.currentSession != Work ==> t.labels.work == s.labels.work
    ensures s.currentSession != ShortBreak ==> t.labels.shortBreak == s.labels.shortBreak
    ensures s.currentSession != LongBreak ==> t.labels.longBreak == s.labels.longBreak
  {
    match s.currentSession
    case Work => s.(labels := s.labels.(work := text))
    case ShortBreak => s.(labels := s.labels.(shortBreak := text))
    case LongBreak => s.(labels := s.labels.(longBreak := text))
  }

  /** The label editor opens on `sessionLabel`; saving it unedited changes nothing. */
  lemma EditLabelRoundTrip(s: TimerState)
    ensures SaveLabel(s, SessionLabel(s)) == s
  {
  }
}

=== FILE: presets.dfy ===
/** The gradient presets offered as backgrounds, and the clamped lookup
    the timer uses to pick the selected one. */
module Presets {
  /** `Color.clear`, or a colour written as hexadecimal text for `Color(hex:)`. */
  datatype Colour = Clear | Hex(code: string)

  /** The background kinds the table uses. */
  datatype Kind = Transparent | CustomImage | Mesh

  /** A preset without its gradient angle (a floating-point value, 0 in every entry). */
  datatype GradientPreset = GradientPreset(name: string, kind: Kind, colors: seq<Colour>)

  /** `GradientPreset.==`: two presets are equal when their names are. */
  predicate SamePreset(p: GradientPreset, q: GradientPreset) {
    p.name == q.name
  }

  /** The index used when the selected index is out of range (also the
      initial selection). */
  const DefaultIndex := 10

  const Table: seq<GradientPreset> := [
    GradientPreset("None (Transparent)", Transparent, [Clear]),
    GradientPreset("Custom Image", CustomImage, [Clear]),
    GradientPreset("Love, Harmony & Peace", Mesh,
      [Hex("#ffff00"), Hex("#e6a64a"), Hex("#c54b8c"),
       Hex("#e6a64a"), Hex("#c54b8c"), Hex("#d47a6e"),
       Hex("#c54b8c"), Hex("#d47a6e"), Hex("#c54b8c")]),
    GradientPreset("Harmony & Creative", Mesh,
      [Hex("#f5deb3"), Hex("#faef5a"), Hex("#ffff00"),
       Hex("#faef5a"), Hex("#e6a64a"), Hex("#c54b8c"),
       Hex("#ffff00"), Hex("#c54b8c"), Hex("#c54b8c")]),
    GradientPreset("Focus & Achievements", Mesh,
      [Hex("#00ffff"), Hex("#00bfff"), Hex("#007fff"),
       Hex("#00bfff"), Hex("#7654a7"), Hex("#eb284f"),
       Hex("#007fff"), Hex("#eb284f"), Hex("#eb284f")]),
    GradientPreset("Focus, Achievements & Creative", Mesh,
      [Hex("#f5deb3"), Hex("#7aefe1"), Hex("#00ffff"),
       Hex("#7aefe1"), Hex("#007fff"), Hex("#7654a7"),
       Hex("#00ffff"), Hex("#007fff"), Hex("#eb284f")]),
    GradientPreset("Freedom & Deep Thinking", Mesh,
      [Hex("#ccccff"), Hex("#d08cc6"), Hex("#c54b8c"),
       Hex("#d08cc6"), Hex("#d8396e"), Hex("#eb284f"),
       Hex("#c54b8c"), Hex("#eb284f"), Hex("#eb284f")]),
    GradientPreset("Freedom, Thinking & Creative", Mesh,
      [Hex("#f5deb3"), Hex("#e0d5d9"), Hex("#ccccff"),
       Hex("#e0d5d9"), Hex("#c54b8c"), Hex("#d8396e"),
       Hex("#ccccff"), Hex("#c54b8c"), Hex("#eb284f")]),
    GradientPreset("Degrade Negative Thoughts", Mesh,
      [Hex("#b22222"), Hex("#c17791"), Hex("#ccccff"),
       Hex("#c17791"), Hex("#c54b8c"), Hex("#e2a647"),
       Hex("#ccccff"), Hex("#c54b8c"), Hex("#ffff00")]),
    GradientPreset("Cosmic Dream", Mesh,
      [Hex("#1a1a2e"), Hex("#16213e"), Hex("#0f3460"),
       Hex("#533483"), Hex("#e94560"), Hex("#0f3460"),
       Hex("#1a1a2e"), Hex("#533483"), Hex("#16213e")]),
    GradientPreset("Ocean Depth", Mesh,
      [Hex("#0077b6"), Hex("#00b4d8"), Hex("#023e8a"),
       Hex("#0096c7"), Hex("#48cae4"), Hex("#0077b6"),
       Hex("#023e8a"), Hex("#00b4d8"), Hex("#90e0ef")]),
    GradientPreset("Sunset Glow", Mesh,
      [Hex("#ff6b6b"), Hex("#ffd93d"), Hex("#ff8c42"),
       Hex("#ff6b6b"), Hex("#ffd93d"), Hex("#ff8c42"),
       Hex("#c44569"), Hex("#f8b500"), Hex("#ff6348")]),
    GradientPreset("Blossom", Mesh,
      [Hex("#ff9a9e"), Hex("#fecfef"), Hex("#fad0c4"),
       Hex("#fbc2eb"), Hex("#a18cd1"), Hex("#fad0c4"),
       Hex("#ff9a9e"), Hex("#fecfef"), Hex("#fbc2eb")]),
    GradientPreset("Northern Lights", Mesh,
      [Hex("#0f0c29"), Hex("#302b63"), Hex("#24243e"),
       Hex("#00d9ff"), Hex("#00ff87"), Hex("#302b63"),
       Hex("#0f0c29"), Hex("#24243e"), Hex("#00d9ff")]),
    GradientPreset("Ember", Mesh,
      [Hex("#f12711"), Hex("#f5af19"), Hex("#c33764"),
       Hex("#f12711"), Hex("#ff6b35"), Hex("#f5af19"),
       Hex("#c33764"), Hex("#f12711"), Hex("#f5af19")])
  ]

  /** `selectedGradient`: the preset at `index` when it is in range, the
      default preset otherwise; never out of bounds. */
  function SelectedGradient(index: int): (p: GradientPreset)
    ensures 0 <= index < |Table| ==> p == Table[index]
    ensures !(0 <= index < |Table|) ==> p == Table[DefaultIndex]
    ensures p in Table
  {
    TableShape();
    if 0 <= index < |Table| then Table[index] else Table[DefaultIndex]
  }

  /** Fifteen entries: two special ones, then thirteen 3x3 mesh gradients. */
  lemma TableShape()
    ensures |Table| == 15 && DefaultIndex < |Table|
    ensures Table[0].kind == Transparent && Table[1].kind == CustomImage
    ensures forall i :: 2 <= i < |Table| ==> Table[i].kind == Mesh
    ensures forall i :: 0 <= i < |Table| && Table[i].kind == Mesh ==> |Table[i].colors| == 9
  {
  }

  /** The names in the table are pairwise distinct, so name equality picks
      out exactly one entry. */
  lemma SamePresetIffSameIndex(i: int, j: int)
    requires 0 <= i < |Table| && 0 <= j < |Table|
    ensures SamePreset(Table[i], Table[j]) <==> i == j
  {
  }

  /** Equality ignores the colours and the kind. */
  lemma SamePresetIgnoresColours(p: GradientPreset, colors: seq<Colour>, kind: Kind)
    ensures SamePreset(p, p.(colors := colors, kind := kind))
  {
  }
}

=== FILE: swift_int.dfy ===
/** Swift's `Int` as used by the timer: a 64-bit signed integer whose
    arithmetic traps on overflow, and whose `/` and `%` truncate toward zero
    (unlike Dafny's Euclidean operators). */
module SwiftInt {

  const IntMin: int := -0x8000_0000_0000_0000
  const IntMax: int := 0x7FFF_FFFF_FFFF_FFFF

  /** True iff `x` is representable as a Swift `Int`. */
  predicate InRange(x: int) {
    IntMin <= x <= IntMax
  }

  /** The C `int` that a `%d` conversion reads from a Swift `Int`: the low
      32 bits, taken as a two's-complement number. */
  function Int32(x: int): (r: int)
    ensures -0x8000_0000 <= r < 0x8000_0000
    ensures (x - r) % 0x1_0000_0000 == 0
    ensures -0x8000_0000 <= x < 0x8000_0000 ==> r == x
  {
    var m := x % 0x1_0000_0000;
    if m >= 0x8000_0000 then m - 0x1_0000_0000 else m
  }

  /** Swift's `a / b` for a positive divisor: the quotient rounded toward zero. */
  function Quot(a: int, b: int): (q: int)
    requires b > 0
    ensures a >= 0 ==> 0 <= q * b <= a < q * b + b
    ensures a < 0 ==> q * b - b < a <= q * b <= 0
  {
    if a >= 0 then
      EuclidDivision(a, b);
      a / b
    else
      EuclidDivision(-a, b);
      -((-a) / b)
  }

  lemma EuclidDivision(a: nat, b: int)
    requires b > 0
    ensures 0 <= (a / b) * b <= a < (a / b) * b + b
  {
    var q, r := a / b, a % b;
    assert a == q * b + r && 0 <= r < b;
    assert q >= 0;
    assert q * b >= 0;
  }

  /** Swift's `a % b` for a positive divisor: the remainder takes the sign of `a`. */
  function Rem(a: int, b: int): (r: int)
    requires b > 0
    ensures a == Quot(a, b) * b + r
    ensures a >= 0 ==> 0 <= r < b
    ensures a < 0 ==> -b < r <= 0
  {
    if a >= 0 then a % b else -((-a) % b)
  }

  /** A truncated quotient never exceeds its dividend in magnitude, so
      `Quot(a, b) * b` is representable whenever `a` is. */
  lemma QuotTimesInRange(a: int, b: int)
    requires b > 0 && InRange(a)
    ensures InRange(Quot(a, b) * b)
  {
  }
}

=== FILE: time_format.dfy ===
/** The timer's text for a number of seconds, `formatSeconds`: "MM:SS"
    below one hour and "H:MM:SS" from one hour on, and `ReadClock`, which
    reads such a text back the way a person reads the display. */
module TimeFormat {
  import opened Wrappers
  import opened SwiftInt
  import opened Decimal

  /** The fields shown on the display. */
  datatype ClockFields = ClockFields(hours: nat, minutes: nat, seconds: nat) {
    function Total(): nat {
      hours * 3600 + minutes * 60 + seconds
    }
  }

  /** `formatSeconds`, with Swift's truncating `/` and `%`. Every `Int` is
      accepted; for a negative count the fields come out negative, as in the
      source, and the properties below are stated for counts from zero up. */
  function FormatSeconds(total: int): (r: string)
    ensures total >= 0 ==> ReadClock(r).Some? && ReadClock(r).value.Total() == total
    ensures total >= 0 ==> ReadClock(r).value.minutes < 60 && ReadClock(r).value.seconds < 60
    ensures total >= 0 ==> (|r| == 5 <==> total < 3600)
    ensures 0 <= total < 3600 ==> ReadClock(r).value.hours == 0
    ensures total >= 3600 ==> r[0] != '0'
  {
    var hours := Quot(total, 3600);
    var minutes := Quot(Rem(total, 3600), 60);
    var seconds := Rem(total, 60);
    if hours > 0 then
      var r := IntString(hours) + ":" + Pad2(minutes) + ":" + Pad2(seconds);
      SplitClock(total);
      ReadLong(hours, minutes, seconds);
      assert r[0] == IntString(hours)[0];
      r
    else
      var r := Pad2(minutes) + ":" + Pad2(seconds);
      if total >= 0 then
        SplitClock(total);
        ReadShort(minutes, seconds);
        r
      else
        r
  }

  /** For a count from zero up, the three truncated fields are the hours,
      the minutes below 60 and the seconds below 60 that make up the count. */
  lemma SplitClock(total: int)
    requires total >= 0
    ensures var hours, minutes, seconds := Quot(total, 3600), Quot(Rem(total, 3600), 60), Rem(total, 60);
      && 0 <= minutes < 60 && 0 <= seconds < 60
      && hours * 3600 + minutes * 60 + seconds == total
      && (hours > 0 <==> total >= 3600)
  {
    var hours, rest := Quot(total, 3600), Rem(total, 3600);
    var minutes, seconds := Quot(rest, 60), Rem(rest, 60);
    assert rest == total - hours * 3600 && 0 <= rest < 3600;
    assert rest == minutes * 60 + seconds && 0 <= seconds < 60;
    assert Rem(total, 60) == seconds by {
      assert total == (hours * 60 + minutes) * 60 + seconds;
    }
  }

  /** Reads "MM:SS" or "H:MM:SS" (any number of hour digits); None for any
      other text. */
  function ReadClock(t: string): Option<ClockFields> {
    if |t| == 5 && t[2] == ':' && AllDigits(t[..2]) && AllDigits(t[3..]) then
      Some(ClockFields(0, ValueOf(t[..2]), ValueOf(t[3..])))
    else if |t| >= 7 && t[|t| - 3] == ':' && t[|t| - 6] == ':'
         && AllDigits(t[..|t| - 6]) && AllDigits(t[|t| - 5..|t| - 3]) && AllDigits(t[|t| - 2..]) then
      Some(ClockFields(ValueOf(t[..|t| - 6]), ValueOf(t[|t| - 5..|t| - 3]), ValueOf(t[|t| - 2..])))
    else
      None
  }

  lemma ReadShort(minutes: int, seconds: int)
    requires 0 <= minutes < 60 && 0 <= seconds < 60
    ensures var t := Pad2(minutes) + ":" + Pad2(seconds);
      ReadClock(t) == Some(ClockFields(0, minutes, seconds))
  {
    var t := Pad2(minutes) + ":" + Pad2(seconds);
    assert t[..2] == Pad2(minutes);
    assert t[3..] == Pad2(seconds);
  }

  lemma ReadLong(hours: int, minutes: int, seconds: int)
    requires hours > 0 && 0 <= minutes < 60 && 0 <= seconds < 60
    ensures var t := IntString(hours) + ":" + Pad2(minutes) + ":" + Pad2(seconds);
      ReadClock(t) == Some(ClockFields(hours, minutes, seconds))
  {
    var h, m, s := IntString(hours), Pad2(minutes), Pad2(seconds);
    assert h == Digits(hours);
    assert |m| == 2 && |s| == 2;
    var t := h + ":" + m + ":" + s;
    var n := |t|;
    assert n == |h| + 6 >= 7;
    assert t[..n - 6] == h;
    assert t[n - 6] == ':' && t[n - 3] == ':';
    assert t[n - 5..n - 3] == m;
    assert t[n - 2..] == s;
    DigitsValue(hours);
  }

  /** The stopwatch after a minute and a half reads "01:30". */
  lemma NinetySeconds()
    ensures FormatSeconds(90) == "01:30"
  {
  }
}

=== FILE: timer_engine.dfy ===
/** The operations of `TimerManager`, each a pure step from one engine
    state to the next, together with the side effects it asks for. */
module TimerEngine {
  import opened TimerModel

  /** What "the configured completion action" means: the one effect the
      dispatcher must produce for a configuration. An empty sound path
      falls back to the system beep. */
  predicate Dispatches(c: CompletionConfig, e: Effect) {
    match c.action
    case Beep => e == SystemBeep
    case SpeakText => e == Speak(c.text)
    case ShowMessage => e == DisplayMessage(c.text)
    case PlaySound => e == (if c.soundPath == "" then SystemBeep else PlayFile(c.soundPath))
  }

  /** Everything except the running flag and the timer bookkeeping agrees. */
  predicate SameApartFromTimer(s: TimerState, t: TimerState) {
    t == s.(isRunning := t.isRunning, timerScheduled := t.timerScheduled, strayTimers := t.strayTimers)
  }

  /** `startTimer`: schedules a new repeating timer and stores it, dropping
      the reference to any timer stored before without invalidating it. */
  function StartTimer(s: TimerState): (t: TimerState)
    ensures t.timerScheduled && SameApartFromTimer(s, t) && t.isRunning == s.isRunning
    ensures LiveTimers(t) == LiveTimers(s) + 1
  {
    s.(timerScheduled := true, strayTimers := s.strayTimers + (if s.timerScheduled then 1 else 0))
  }

  /** `stopTimer`: invalidates the stored timer, if any. */
  function StopTimer(s: TimerState): (t: TimerState)
    ensures !t.timerScheduled && SameApartFromTimer(s, t) && t.isRunning == s.isRunning
    ensures t.strayTimers == s.strayTimers
  {
    s.(timerScheduled := false)
  }

  /** `toggleTimer`: flips the running flag and starts or stops the timer. */
  function ToggleTimer(s: TimerState): (t: TimerState)
    ensures t.isRunning == !s.isRunning && SameApartFromTimer(s, t)
    ensures TimerInvariant(s) ==> TimerInvariant(t)
  {
    var flipped := s.(isRunning := !s.isRunning);
    if flipped.isRunning then StartTimer(flipped) else StopTimer(flipped)
  }

  /** `switchSession`: selects a session and loads its full length. */
  function SwitchSession(s: TimerState, session: SessionType): (t: TimerState)
    ensures t.currentSession == session
    ensures t.pomodoroTime == DurationOf(s.durations, session) * 60
    ensures t == s.(currentSession := t.currentSession, pomodoroTime := t.pomodoroTime)
  {
    s.(currentSession := session, pomodoroTime := DurationOf(s.durations, session) * 60)
  }

  /** `showCompletionMessage`: shows the message and schedules a callback
      that hides it 5 seconds later. */
  function ShowCompletionMessage(s: TimerState, message: string): (step: Step)
    ensures step.state.isShowingCompletionMessage && step.state.completionMessageText == message
    ensures step.state.pendingDismissals == s.pendingDismissals + 1
    ensures step.effects == [DisplayMessage(message)]
    ensures step.state == s.(isShowingCompletionMessage := true, completionMessageText := message,
                             pendingDismissals := step.state.pendingDismissals)
  {
    Step(s.(isShowingCompletionMessage := true, completionMessageText := message,
            pendingDismissals := s.pendingDismissals + 1),
         [DisplayMessage(message)])
  }

  /** `dismissCompletionMessage`: hides the message. The scheduled
      auto-dismiss is not cancelled and still fires later. */
  function DismissCompletionMessage(s: TimerState): (t: TimerState)
    ensures !t.isShowingCompletionMessage
    ensures t.pendingDismissals == s.pendingDismissals
    ensures t == s.(isShowingCompletionMessage := false)
  {
    s.(isShowingCompletionMessage := false)
  }

  /** A scheduled auto-dismiss callback fires, 5 seconds after it was scheduled. */
  function AutoDismiss(s: TimerState): (t: TimerState)
    requires s.pendingDismissals > 0
    ensures !t.isShowingCompletionMessage
    ensures t.pendingDismissals == s.pendingDismissals - 1
    ensures t == s.(isShowingCompletionMessage := false, pendingDismissals := t.pendingDismissals)
  {
    s.(isShowingCompletionMessage := false, pendingDismissals := s.pendingDismissals - 1)
  }

  /** `playCustomSound`: beeps when no sound file is configured. */
  function PlayCustomSound(s: TimerState): (step: Step)
    ensures step.state == s
    ensures step.effects == [if s.completion.soundPath == "" then SystemBeep else PlayFile(s.completion.soundPath)]
  {
    if s.completion.soundPath == "" then Step(s, [SystemBeep])
    else Step(s, [PlayFile(s.completion.soundPath)])
  }

  /** `executeCompletionAction`: exactly one effect, the configured one;
      only the message action changes the engine's state. */
  function ExecuteCompletionAction(s: TimerState): (step: Step)
    ensures |step.effects| == 1 && Dispatches(s.completion, step.effects[0])
    ensures s.completion.action != ShowMessage ==> step.state == s
    ensures s.completion.action == ShowMessage ==>
      step.state == ShowCompletionMessage(s, s.completion.text).state
  {
    match s.completion.action
    case Beep => Step(s, [SystemBeep])
    case SpeakText => Step(s, [Speak(s.completion.text)])
    case ShowMessage => ShowCompletionMessage(s, s.completion.text)
    case PlaySound => PlayCustomSound(s)
  }

  /** The session that follows a completed one, given the number of work
      sessions completed so far (after counting this one). */
  function NextSession(completed: SessionType, count: nat): SessionType {
    if completed == Work then
      if count % 4 == 0 then LongBreak else ShortBreak
    else Work
  }

  /** `handleSessionComplete`: stops the engine, dispatches the completion
      action once, counts a finished work session, and loads the next
      session (a long break after every fourth work session), paused. */
  function HandleSessionComplete(s: TimerState): (step: Step)
    ensures var t := step.state;
      && !t.isRunning && !t.timerScheduled && t.strayTimers == s.strayTimers
      && |step.effects| == 1 && Dispatches(s.completion, step.effects[0])
      && (s.currentSession == Work ==>
            t.sessionCount == s.sessionCount + 1
            && (t.currentSession == LongBreak <==> t.sessionCount % 4 == 0)
            && t.currentSession != Work)
      && (s.currentSession != Work ==> t.sessionCount == s.sessionCount && t.currentSession == Work)
      && t.pomodoroTime == DurationOf(s.durations, t.currentSession) * 60
      && t.mode == s.mode && t.stopwatchTime == s.stopwatchTime
      && t.durations == s.durations && t.labels == s.labels && t.completion == s.completion
      && t.selectedGradientIndex == s.selectedGradientIndex
      && (t.isShowingCompletionMessage <==>
            s.isShowingCompletionMessage || s.completion.action == ShowMessage)
      && t.pendingDismissals == s.pendingDismissals + (if s.completion.action == ShowMessage then 1 else 0)
      && t.completionMessageText ==
           (if s.completion.action == ShowMessage then s.completion.text else s.completionMessageText)
    ensures step.state == ExecuteCompletionAction(s).state.(
      isRunning := false, timerScheduled := false, sessionCount := step.state.sessionCount,
      currentSession := step.state.currentSession, pomodoroTime := step.state.pomodoroTime)
  {
    var stopped := StopTimer(s.(isRunning := false));
    var fired := ExecuteCompletionAction(stopped);
    var t := fired.state;
    var counted := if t.currentSession == Work then t.(sessionCount := t.sessionCount + 1) else t;
    Step(SwitchSession(counted, NextSession(t.currentSession, counted.sessionCount)), fired.effects)
  }

  /** `tick`: one second of the active mode. A Pomodoro countdown loses a
      second while time is left; a tick that finds no time left (zero or,
      after a manual edit, negative) completes the session. The stopwatch
      counts up; the clock keeps no state of its own. */
  function Tick(s: TimerState): (step: Step)
    ensures s.mode == Pomodoro && s.pomodoroTime > 0 ==>
      step.effects == [] && step.state == s.(pomodoroTime := s.pomodoroTime - 1)
    ensures s.mode == Pomodoro && s.pomodoroTime <= 0 ==> step == HandleSessionComplete(s)
    ensures s.mode == Stopwatch ==>
      step.effects == [] && step.state == s.(stopwatchTime := s.stopwatchTime + 1)
    ensures s.mode == Clock ==> step == Step(s, [])
  {
    match s.mode
    case Pomodoro =>
      if s.pomodoroTime > 0 then Step(s.(pomodoroTime := s.pomodoroTime - 1), [])
      else HandleSessionComplete(s)
    case Stopwatch => Step(s.(stopwatchTime := s.stopwatchTime + 1), [])
    case Clock => Step(s, [])
  }

  /** `reset`: stops the engine, hides the completion message, and restarts
      the active mode's counter: the current session's full length for a
      Pomodoro, zero for the stopwatch, nothing for the clock. */
  function Reset(s: TimerState): (t: TimerState)
    ensures !t.isRunning && !t.timerScheduled && t.strayTimers == s.strayTimers
    ensures !t.isShowingCompletionMessage && t.pendingDismissals == s.pendingDismissals
    ensures t.mode == s.mode && t.currentSession == s.currentSession && t.sessionCount == s.sessionCount
    ensures s.mode == Pomodoro ==> t.pomodoroTime == DurationOf(s.durations, s.currentSession) * 60
    ensures s.mode != Pomodoro ==> t.pomodoroTime == s.pomodoroTime
    ensures s.mode == Stopwatch ==> t.stopwatchTime == 0
    ensures s.mode != Stopwatch ==> t.stopwatchTime == s.stopwatchTime
    ensures t == s.(isRunning := false, timerScheduled := false, isShowingCompletionMessage := false,
                    pomodoroTime := t.pomodoroTime, stopwatchTime := t.stopwatchTime)
    ensures TimerInvariant(s) ==> TimerInvariant(t)
  {
    var t := StopTimer(s.(isRunning := false)).(isShowingCompletionMessage := false);
    match s.mode
    case Pomodoro => SwitchSession(t, t.currentSession)
    case Stopwatch => t.(stopwatchTime := 0)
    case Clock => t
  }

  /** Choosing a mode (the mode tabs and the menu-bar picker) changes only
      the mode: both counters and the running timer are kept. */
  function SetMode(s: TimerState, mode: TimerMode): (t: TimerState)
    ensures t.mode == mode && t == s.(mode := mode)
  {
    s.(mode := mode)
  }

  /** `sessionLabel`: the custom label of the current session. */
  function SessionLabel(s: TimerState): (r: string)
    ensures s.currentSession == Work ==> r == s.labels.work
    ensures s.currentSession == ShortBreak ==> r == s.labels.shortBreak
    ensures s.currentSession == LongBreak ==> r == s.labels.longBreak
  {
    match s.currentSession
    case Work => s.labels.work
    case ShortBreak => s.labels.shortBreak
    case LongBreak => s.labels.longBreak
  }

  /** One second of wall time: every live repeating timer fires once and
      each firing runs `tick`. */
  function Second(s: TimerState): Step {
    Fire(s, LiveTimers(s))
  }

  /** `k` consecutive timer firings. */
  function Fire(s: TimerState, k: nat): Step
    decreases k
  {
    if k == 0 then Step(s, [])
    else
      var first := Tick(s);
      var rest := Fire(first.state, k - 1);
      Step(rest.state, first.effects + rest.effects)
  }

  /** Under the invariant a second is one tick while running and nothing
      otherwise: no tick is skipped or applied twice. */
  lemma SecondIsOneTick(s: TimerState)
    requires TimerInvariant(s)
    ensures s.isRunning ==> Second(s) == Tick(s)
    ensures !s.isRunning ==> Second(s) == Step(s, [])
  {
    if s.isRunning {
      var first := Tick(s);
      assert Fire(first.state, 0) == Step(first.state, []);
      assert first.effects + [] == first.effects;
    }
  }

  /** A timer that was scheduled and then lost makes the engine tick twice
      a second: this is why the invariant matters. */
  lemma StrayTimerTicksTwice(s: TimerState)
    requires s.mode == Stopwatch && s.timerScheduled && s.strayTimers == 1
    ensures Second(s).state.stopwatchTime == s.stopwatchTime + 2
  {
    var one := Tick(s);
    var two := Tick(one.state);
    assert Fire(two.state, 0).state == two.state;
    assert Fire(one.state, 1).state == two.state;
  }

  /** Because `reset` hides the message without cancelling its pending
      auto-dismiss, a message shown again after a reset is hidden by the
      earlier callback, before its own five seconds are up. */
  lemma ResetLeavesCallbackPending(s: TimerState, first: string, second: string)
    ensures var shown := ShowCompletionMessage(s, first).state;
      var again := ShowCompletionMessage(Reset(shown), second).state;
      && !Reset(shown).isShowingCompletionMessage
      && again.isShowingCompletionMessage && again.pendingDismissals == s.pendingDismissals + 2
      && !AutoDismiss(again).isShowingCompletionMessage
      && AutoDismiss(again).completionMessageText == second
  {
  }

  /** Dismissing does not cancel the pending auto-dismiss either. */
  lemma EarlierCallbackHidesNextMessage(s: TimerState, first: string, second: string)
    ensures var shown := ShowCompletionMessage(s, first).state;
      var again := ShowCompletionMessage(DismissCompletionMessage(shown), second).state;
      && again.isShowingCompletionMessage && again.pendingDismissals == s.pendingDismissals + 2
      && !AutoDismiss(again).isShowingCompletionMessage
      && AutoDismiss(again).completionMessageText == second
  {
  }
}

=== FILE: timer_model.dfy ===
/** The state of `TimerManager`, the single timer engine behind every view:
    the mode, the Pomodoro session bookkeeping, both counters, the running
    flag and the scheduled 1-second timer, and the settings the operations
    read. Presentation-only settings (opacity, position, subtitle fonts,
    custom image path) are not part of it. */
module TimerModel {

  datatype TimerMode = Pomodoro | Stopwatch | Clock

  datatype SessionType = Work | ShortBreak | LongBreak

  datatype CompletionAction = Beep | SpeakText | ShowMessage | PlaySound

  /** Configured session lengths, in minutes. */
  datatype Durations = Durations(work: int, shortBreak: int, longBreak: int)

  /** The user-editable label of each session. */
  datatype Labels = Labels(work: string, shortBreak: string, longBreak: string)

  datatype CompletionConfig = CompletionConfig(action: CompletionAction, text: string, soundPath: string)

  /** `timerScheduled` says whether the `timer` property holds a scheduled
      repeating timer; `strayTimers` counts timers that were scheduled and
      then lost without being invalidated (they would keep ticking).
      `pendingDismissals` counts the 5-second auto-dismiss callbacks that
      are scheduled and have not fired yet. */
  datatype TimerState = TimerState(
    mode: TimerMode,
    currentSession: SessionType,
    sessionCount: nat,
    pomodoroTime: int,
    stopwatchTime: nat,
    isRunning: bool,
    timerScheduled: bool,
    strayTimers: nat,
    durations: Durations,
    labels: Labels,
    completion: CompletionConfig,
    isShowingCompletionMessage: bool,
    completionMessageText: string,
    pendingDismissals: nat,
    selectedGradientIndex: int
  )

  /** Side effects the engine hands to the outside world. */
  datatype Effect =
    | SystemBeep
    | Speak(text: string)
    | PlayFile(path: string)
    | DisplayMessage(text: string)   // message shown, auto-dismiss scheduled in 5 seconds

  /** A state together with the effects produced on the way to it. */
  datatype Step = Step(state: TimerState, effects: seq<Effect>)

  /** The configured length of a session, in minutes. */
  function DurationOf(d: Durations, session: SessionType): int {
    match session
    case Work => d.work
    case ShortBreak => d.shortBreak
    case LongBreak => d.longBreak
  }

  /** At most one live 1-second timer, and it exists exactly while running. */
  predicate TimerInvariant(s: TimerState) {
    s.timerScheduled == s.isRunning && s.strayTimers == 0
  }

  /** The number of live repeating timers, each firing once per second. */
  function LiveTimers(s: TimerState): nat {
    s.strayTimers + (if s.timerScheduled then 1 else 0)
  }

  /** The state at launch. */
  function Initial(): (s: TimerState)
    ensures TimerInvariant(s) && !s.isRunning
    ensures s.mode == Pomodoro && s.currentSession == Work && s.sessionCount == 0
    ensures s.pomodoroTime == DurationOf(s.durations, Work) * 60 == 1500
    ensures s.stopwatchTime == 0 && !s.isShowingCompletionMessage
  {
    TimerState(
      mode := Pomodoro,
      currentSession := Work,
      sessionCount := 0,
      pomodoroTime := 25 * 60,
      stopwatchTime := 0,
      isRunning := false,
      timerScheduled := false,
      strayTimers := 0,
      durations := Durations(25, 5, 15),
      labels := Labels("\U{1F3AF} Focus Time", "\U{2615} Short Break", "\U{1F334} Long Break"),
      completion := CompletionConfig(Beep, "Time is up! Take a break.", ""),
      isShowingCompletionMessage := false,
      completionMessageText := "",
      pendingDismissals := 0,
      selectedGradientIndex := 10
    )
  }
}

=== FILE: timer_runs.dfy ===
/** Properties of the engine over many steps: the countdown, the single
    completion, the stopwatch, the Work/break cycle, and the invariant
    that exactly one timer exists while running. */
module TimerRuns {
  import opened TimerModel
  import opened TimerEngine
  import TimeFormat

  /** `n` seconds of wall time. */
  function Seconds(s: TimerState, n: nat): Step
    decreases n
  {
    if n == 0 then Step(s, [])
    else
      var first := Second(s);
      var rest := Seconds(first.state, n - 1);
      Step(rest.state, first.effects + rest.effects)
  }

  /** While paused nothing happens, however long one waits. */
  lemma {:induction false} IdleSeconds(s: TimerState, n: nat)
    requires TimerInvariant(s) && !s.isRunning
    ensures Seconds(s, n) == Step(s, [])
  {
    if n > 0 {
      SecondIsOneTick(s);
      IdleSeconds(s, n - 1);
    }
  }

  /** A running countdown with `k` seconds left loses exactly one second per
      second and reaches zero after `k` seconds, with no effect on the way. */
  lemma {:induction false} Countdown(s: TimerState, k: nat)
    requires TimerInvariant(s) && s.isRunning && s.mode == Pomodoro && s.pomodoroTime == k
    ensures Seconds(s, k) == Step(s.(pomodoroTime := 0), [])
    decreases k
  {
    if k > 0 {
      SecondIsOneTick(s);
      var next := s.(pomodoroTime := k - 1);
      assert Second(s) == Step(next, []);
      Countdown(next, k - 1);
      assert next.(pomodoroTime := 0) == s.(pomodoroTime := 0);
    }
  }

  lemma {:induction false} SecondsSplit(s: TimerState, m: nat, n: nat)
    ensures var a := Seconds(s, m); var b := Seconds(a.state, n);
      Seconds(s, m + n) == Step(b.state, a.effects + b.effects)
    decreases m
  {
    if m == 0 {
      assert [] + Seconds(s, n).effects == Seconds(s, n).effects;
    } else {
      var first := Second(s);
      SecondsSplit(first.state, m - 1, n);
      var a' := Seconds(first.state, m - 1);
      var b := Seconds(a'.state, n);
      assert first.effects + (a'.effects + b.effects) == (first.effects + a'.effects) + b.effects;
    }
  }

  /** With `k` seconds left, the session completes on second `k + 1` — one
      second after the display first shows zero — and then never again:
      exactly one completion action, and the engine is left paused. */
  lemma CompletesOnce(s: TimerState, k: nat, n: nat)
    requires TimerInvariant(s) && s.isRunning && s.mode == Pomodoro && s.pomodoroTime == k
    requires n > k
    ensures Seconds(s, n) == HandleSessionComplete(s.(pomodoroTime := 0))
    ensures var done := Seconds(s, n);
      && |done.effects| == 1 && Dispatches(s.completion, done.effects[0])
      && !done.state.isRunning && TimerInvariant(done.state)
  {
    var done := HandleSessionComplete(s.(pomodoroTime := 0));
    CompletesAtOnce(s, k);
    IdleSeconds(done.state, n - (k + 1));
    SecondsSplit(s, k + 1, n - (k + 1));
    assert done.effects + [] == done.effects;
  }

  /** The completion itself, on second `k + 1`. */
  lemma CompletesAtOnce(s: TimerState, k: nat)
    requires TimerInvariant(s) && s.isRunning && s.mode == Pomodoro && s.pomodoroTime == k
    ensures Seconds(s, k + 1) == HandleSessionComplete(s.(pomodoroTime := 0))
  {
    var zero := s.(pomodoroTime := 0);
    Countdown(s, k);
    SecondIsOneTick(zero);
    var done := HandleSessionComplete(zero);
    assert Seconds(zero, 1) == Step(done.state, done.effects + []);
    assert done.effects + [] == done.effects;
    SecondsSplit(s, k, 1);
    assert [] + done.effects == done.effects;
  }

  /** A running stopwatch counts every second, without bound. */
  lemma {:induction false} StopwatchCounts(s: TimerState, n: nat)
    requires TimerInvariant(s) && s.isRunning && s.mode == Stopwatch
    ensures Seconds(s, n) == Step(s.(stopwatchTime := s.stopwatchTime + n), [])
    decreases n
  {
    if n > 0 {
      SecondIsOneTick(s);
      var next := s.(stopwatchTime := s.stopwatchTime + 1);
      StopwatchCounts(next, n - 1);
      assert next.(stopwatchTime := next.stopwatchTime + (n - 1)) == s.(stopwatchTime := s.stopwatchTime + n);
    }
  }

  /** A default 25-minute work session, started at launch, shows 00:00
      after 1500 seconds and completes on second 1501: one beep, one
      finished session, and a paused five-minute short break. */
  lemma FirstWorkSession()
    ensures var s := ToggleTimer(Initial());
      && Seconds(s, 1500).state.pomodoroTime == 0 && Seconds(s, 1500).effects == []
      && var done := Seconds(s, 1501);
         done.effects == [SystemBeep] && done.state.sessionCount == 1
         && done.state.currentSession == ShortBreak && done.state.pomodoroTime == 300
         && !done.state.isRunning
  {
    FirstCountdown();
    FirstCompletes();
    FirstCompletion();
  }

  lemma FirstCountdown()
    ensures Seconds(Started(), 1500) == Step(Started().(pomodoroTime := 0), [])
  {
    Countdown(Started(), 1500);
  }

  lemma FirstCompletes()
    ensures Seconds(Started(), 1501) == HandleSessionComplete(Started().(pomodoroTime := 0))
  {
    CompletesOnce(Started(), 1500, 1501);
  }

  /** The engine just after Start is pressed at launch. */
  function Started(): (s: TimerState)
    ensures s == ToggleTimer(Initial())
    ensures TimerInvariant(s) && s.isRunning && s.mode == Pomodoro
    ensures s.pomodoroTime == 1500 && s.sessionCount == 0 && s.currentSession == Work
    ensures s.completion.action == Beep
  {
    ToggleTimer(Initial())
  }

  /** Completing the first work session of the day. */
  lemma FirstCompletion()
    ensures var done := HandleSessionComplete(Started().(pomodoroTime := 0));
      && done.effects == [SystemBeep] && done.state.sessionCount == 1
      && done.state.currentSession == ShortBreak && done.state.pomodoroTime == 300
      && !done.state.isRunning
  {
  }

  /** The stopwatch started at launch reads "01:30" after ninety seconds. */
  lemma NinetySecondStopwatch()
    ensures var s := ToggleTimer(SetMode(Initial(), Stopwatch));
      var after := Seconds(s, 90).state;
      after.stopwatchTime == 90 && TimeFormat.FormatSeconds(after.stopwatchTime) == "01:30"
  {
    var s := ToggleTimer(SetMode(Initial(), Stopwatch));
    StopwatchCounts(s, 90);
    TimeFormat.NinetySeconds();
  }

  /** Resetting twice is the same as resetting once. */
  lemma ResetIdempotent(s: TimerState)
    ensures Reset(Reset(s)) == Reset(s)
  {
  }

  /** Every engine operation keeps "the timer exists exactly while running,
      and no timer was ever lost". */
  lemma InvariantPreserved(s: TimerState, session: SessionType, mode: TimerMode, message: string)
    requires TimerInvariant(s)
    ensures TimerInvariant(ToggleTimer(s))
    ensures TimerInvariant(Reset(s))
    ensures TimerInvariant(HandleSessionComplete(s).state)
    ensures TimerInvariant(Tick(s).state)
    ensures TimerInvariant(Second(s).state)
    ensures TimerInvariant(SwitchSession(s, session))
    ensures TimerInvariant(SetMode(s, mode))
    ensures TimerInvariant(ExecuteCompletionAction(s).state)
    ensures TimerInvariant(ShowCompletionMessage(s, message).state)
    ensures TimerInvariant(DismissCompletionMessage(s))
    ensures s.pendingDismissals > 0 ==> TimerInvariant(AutoDismiss(s))
  {
    SecondIsOneTick(s);
  }

  /** `n` completed sessions in a row (the engine state only). */
  function Completions(s: TimerState, n: nat): TimerState
    decreases n
  {
    if n == 0 then s else Completions(HandleSessionComplete(s).state, n - 1)
  }

  /** Work and breaks alternate: starting from a work session with `c`
      sessions behind it, `2k` completions later the engine is back at a
      work session with `c + k` behind it. */
  lemma {:induction false} Cycle(s: TimerState, k: nat)
    requires s.currentSession == Work
    ensures Completions(s, 2 * k).currentSession == Work
    ensures Completions(s, 2 * k).sessionCount == s.sessionCount + k
  {
    if k > 0 {
      Cycle(s, k - 1);
      TwoMore(s, 2 * k - 2);
    }
  }

  /** From a work session `n` completions in, two more completions lead
      back to a work session with one more session behind it. */
  lemma TwoMore(s: TimerState, n: nat)
    requires Completions(s, n).currentSession == Work
    ensures Completions(s, n + 2).currentSession == Work
    ensures Completions(s, n + 2).sessionCount == Completions(s, n).sessionCount + 1
  {
    var w := Completions(s, n);
    CompletionsStep(s, n);
    CompletionsStep(s, n + 1);
    WorkThenBreak(w);
  }

  /** Starting from a work session with `c` sessions behind it, the break
      reached after `2k + 1` completions follows session `c + k + 1`, and
      it is a long one exactly when that count is a multiple of four. */
  lemma BreakAfterCycle(s: TimerState, k: nat)
    requires s.currentSession == Work
    ensures Completions(s, 2 * k + 1).sessionCount == s.sessionCount + k + 1
    ensures Completions(s, 2 * k + 1).currentSession ==
      (if (s.sessionCount + k + 1) % 4 == 0 then LongBreak else ShortBreak)
  {
    Cycle(s, k);
    var w := Completions(s, 2 * k);
    CompletionsStep(s, 2 * k);
    assert Completions(s, 2 * k + 1) == HandleSessionComplete(w).state;
    WorkThenBreak(w);
  }

  /** One work session and the break after it. */
  lemma WorkThenBreak(w: TimerState)
    requires w.currentSession == Work
    ensures var b := HandleSessionComplete(w).state;
      && b.sessionCount == w.sessionCount + 1
      && b.currentSession == (if (w.sessionCount + 1) % 4 == 0 then LongBreak else ShortBreak)
      && HandleSessionComplete(b).state.currentSession == Work
      && HandleSessionComplete(b).state.sessionCount == w.sessionCount + 1
  {
  }

  lemma {:induction false} CompletionsStep(s: TimerState, n: nat)
    ensures Completions(s, n + 1) == HandleSessionComplete(Completions(s, n)).state
    decreases n
  {
    if n > 0 {
      var next := HandleSessionComplete(s).state;
      CompletionsStep(next, n - 1);
      assert Completions(s, n + 1) == Completions(next, n);
      assert Completions(s, n) == Completions(next, n - 1);
    }
  }

  /** From launch, the `k`-th break (counting from 1) is a long break
      exactly when `k` is a multiple of four. */
  lemma LongBreakEveryFourth(k: nat)
    requires k >= 1
    ensures Completions(Initial(), 2 * k - 1).currentSession == LongBreak <==> k % 4 == 0
  {
    BreakAfterCycle(Initial(), k - 1);
  }
}

=== FILE: window_manager.dfy ===
/** `WindowManager`: which presentation is active (the standard window,
    the full-screen overlay or the floating widget) and the switch between
    them, which first takes down the surface of the old mode and then
    brings up the surface of the new one. */
module WindowManager {
  import opened Panels

  datatype DisplayMode = Window | Overlay | Floating

  /** What the switch finds on the machine: whether there is a main screen,
      and whether the app's main window still exists. */
  datatype Environment = Environment(hasMainScreen: bool, hasMainWindow: bool)

  datatype DisplayState = DisplayState(
    activeMode: DisplayMode,
    overlay: OverlayController,
    floating: FloatingController,
    mainWindowVisible: bool
  )

  /** At launch: window mode, main window up, no panels. */
  const Initial := DisplayState(Window, NoOverlay, FloatingController(false), true)

  /** A panel is only held by the controller of the active mode. */
  predicate Invariant(d: DisplayState) {
    && (d.overlay.overlayPanel ==> d.activeMode == Overlay)
    && (d.floating.floatingPanel ==> d.activeMode == Floating)
    && OverlayInvariant(d.overlay)
  }

  /** The launch state is in window mode and keeps the invariant. */
  lemma InitialInvariant()
    ensures Initial.activeMode == Window && Invariant(Initial)
  {
  }

  /** Showing or hiding the completion panel, whenever the controller's
      methods are called and whatever the mode, never breaks the invariant:
      it is not one of the mode panels. */
  lemma CompletionOverlayKeepsInvariant(d: DisplayState, hasMainScreen: bool)
    requires Invariant(d)
    ensures Invariant(d.(overlay := ShowCompletionOverlay(d.overlay, hasMainScreen)))
    ensures Invariant(d.(overlay := HideCompletionOverlay(d.overlay)))
  {
  }

  /** Step 1 of `switchTo`: take down the surface of the active mode only. */
  function Teardown(d: DisplayState, env: Environment): (r: DisplayState)
    ensures r.activeMode == d.activeMode
    ensures d.activeMode == Window ==>
      r == d.(mainWindowVisible := if env.hasMainWindow then false else d.mainWindowVisible)
    ensures d.activeMode == Overlay ==> r == d.(overlay := HideOverlay(d.overlay))
    ensures d.activeMode == Floating ==> r == d.(floating := HideFloating(d.floating))
  {
    match d.activeMode
    case Window => if env.hasMainWindow then d.(mainWindowVisible := false) else d
    case Overlay => d.(overlay := HideOverlay(d.overlay))
    case Floating => d.(floating := HideFloating(d.floating))
  }

  /** Step 3 of `switchTo`: bring up the surface of the new mode. */
  function Activate(d: DisplayState, env: Environment): (r: DisplayState)
    ensures r.activeMode == d.activeMode
    ensures d.activeMode == Window ==>
      r == (if env.hasMainWindow then d.(mainWindowVisible := true) else d)
    ensures d.activeMode == Overlay ==> r == d.(overlay := ShowOverlay(d.overlay, env.hasMainScreen))
    ensures d.activeMode == Floating ==> r == d.(floating := ShowFloating(d.floating))
  {
    match d.activeMode
    case Window => if env.hasMainWindow then d.(mainWindowVisible := true) else d
    case Overlay => d.(overlay := ShowOverlay(d.overlay, env.hasMainScreen))
    case Floating => d.(floating := ShowFloating(d.floating))
  }

  /** `switchTo(mode)`. */
  function SwitchTo(d: DisplayState, mode: DisplayMode, env: Environment): (r: DisplayState)
    ensures r.activeMode == mode
    ensures Invariant(d) ==> Invariant(r)
    ensures Invariant(d) && mode == Floating ==> r.floating.floatingPanel
    ensures Invariant(d) && mode == Overlay ==> (r.overlay.overlayPanel <==> env.hasMainScreen)
    ensures Invariant(d) && mode == Window && env.hasMainWindow ==> r.mainWindowVisible
    ensures Invariant(d) ==> r.overlay.completionPanel == d.overlay.completionPanel
  {
    Activate(Teardown(d, env).(activeMode := mode), env)
  }

  /** Switching to the same overlay or floating mode twice leaves its panel
      shown: the second call takes the panel down in its first step and
      puts it back in its last. */
  lemma SwitchTwiceStaysShown(d: DisplayState, mode: DisplayMode, env: Environment)
    requires Invariant(d)
    ensures var twice := SwitchTo(SwitchTo(d, mode, env), mode, env);
      && (mode == Floating ==> twice.floating.floatingPanel)
      && (mode == Overlay ==> (twice.overlay.overlayPanel <==> env.hasMainScreen))
      && (mode == Window && env.hasMainWindow ==> twice.mainWindowVisible)
  {
  }

  /** Every sequence of switches from launch keeps the invariant and ends
      in the last requested mode. */
  function SwitchAll(d: DisplayState, modes: seq<DisplayMode>, env: Environment): (r: DisplayState)
    requires Invariant(d)
    ensures Invariant(r)
    ensures modes != [] ==> r.activeMode == modes[|modes| - 1]
    ensures modes == [] ==> r == d
    decreases |modes|
  {
    if modes == [] then d else SwitchAll(SwitchTo(d, modes[0], env), modes[1..], env)
  }

  /** Without the invariant the toggle shows through: an overlay panel left
      over while in window mode is closed, not shown, by `switchTo(overlay)`. */
  lemma StaleOverlayToggledOff(d: DisplayState, env: Environment)
    requires d.activeMode == Window && d.overlay.overlayPanel
    ensures !SwitchTo(d, Overlay, env).overlay.overlayPanel
  {
  }

  /** `SettingsWindowController`: whether it holds a settings window. */
  datatype SettingsController = SettingsController(settingsWindow: bool)

  /** What `showSettings` leaves behind, and whether it brought a stored
      settings window to the front. */
  datatype SettingsOutcome = SettingsOutcome(controller: SettingsController, broughtToFront: bool)

  /** `showSettings`: brings a stored window to the front; otherwise it
      builds a window that is neither shown nor stored, so nothing changes. */
  function ShowSettings(c: SettingsController): (r: SettingsOutcome)
    ensures r.controller == c
    ensures r.broughtToFront <==> c.settingsWindow
  {
    if c.settingsWindow then SettingsOutcome(c, true) else SettingsOutcome(c, false)
  }

  /** `toggleSettings`: both branches call `showSettings`, so the outcome
      does not depend on the display state at all. */
  function ToggleSettings(d: DisplayState, c: SettingsController): (r: SettingsOutcome)
    ensures r == ShowSettings(c)
  {
    if d.activeMode == Window then ShowSettings(c) else ShowSettings(c)
  }

  /** Starting without a settings window, no number of calls ever shows one. */
  lemma SettingsNeverShown(d: DisplayState)
    ensures !ToggleSettings(d, SettingsController(false)).broughtToFront
    ensures ToggleSettings(d, SettingsController(false)).controller == SettingsController(false)
  {
  }
}

=== FILE: wrappers.dfy ===
/** The usual Some/None datatype, used for the source's optional values
    (a failable `Int(String)`, a disabled button, an arithmetic trap). */
module Wrappers {

  datatype Option<+T> = None | Some(value: T) {

    /** Swift's `x ?? default`. */
    function GetOr(default: T): T {
      match this
      case Some(v) => v
      case None => default
    }
  }
}
